=== FILE: README.md ===
# Command: a model of the argument-binding engine and its scripts

The `Command` library lets a Swift command-line tool declare its arguments as
property-wrapped fields:

- `@Flag` toggles a value when its marker is present.
- `@Option` binds the token after its marker.
- `@Options` binds the run of tokens after its marker.
- `@Input` binds the last token.
- `@Inputs` binds the tokens after the last marker.

`readArguments` collects the wrapped fields in declaration order. It binds the
marker-based ones first and then the single positional one. Every binder works
on one shared list of tokens and removes the tokens it consumed. A conversion
error exits with status 2 and the error's reason.

This project models that engine as pure Dafny functions over `seq<string>`
token lists and proves how it behaves. It also models the pure cores of the
example commands and scripts shipped with the library:

- the `Run`, `Greeting` and `Greetings` examples, and the command used by the
  unit tests;
- the license table of `license`;
- the `TOOLCHAINS` line editing and toolchain matching of `swift-toolchain`;
- the password rounds of `supergenpass`, with Base64 written out after
  section 4 of RFC 4648.

Modules, one concept each:

| file | module | what it holds |
|---|---|---|
| common.dfy | `Common` | `Option`, prefix and substring tests, ASCII lower-casing, `filter` and `compactMap` |
| binders.dfy | `Binders` | marker matching and the five `set` methods, as functions from (value, tokens) to an `Outcome` |
| conversion.dfy | `Conversion` | the `Optional` and `RawRepresentable` string conversions |
| command.dfy | `Command` | the five wrappers, field collection, the partition, `compile` and `readArguments` |
| command_laws.dfy | `CommandLaws` | laws of a binding pass: sequencing, first error, infallible passes, grouping |
| examples.dfy | `RunExample`, `GreetingExample`, `GreetingsExample`, `ToggleExample` | the example commands, end to end |
| text.dfy | `Text` | `split(separator:)` and `joined(separator:)` over one character |
| license.dfy | `License` | the license table and key resolution |
| toolchain.dfy | `Toolchain` | `setIdentifier`, `resetIdentifier`, `getIdentifier(for:with:)`, `getVersionWithIdentifier` |
| base64.dfy | `Base64` | Base64 encoding and decoding, per section 4 of RFC 4648 |
| supergenpass.dfy | `SuperGenPass` | `isValidPassword`, the `pwgen` rounds and the option dispatch of `main` |

Reflection is replaced by an explicit list of stored fields. Each `Field` has
a label and, when it is a wrapper, the wrapper's value. A field is addressed
by its position in that list, which replaces the key path. An element type is
known by name, and `convert(typeName, token)` stands for that type's
`init?(_:)`.

A binding pass ends in one of three ways:

- `Completed` holds the written-back fields and the leftover tokens.
- `Exited` holds status 2, the reason, and the fields as they were when the
  error was thrown.
- `Crashed` is a runtime trap: a failed `assert`, or a subscript past the end.

## Model

| member | source | states |
|---|---|---|
| Binders.OptionText | Sources/CommandProperty.swift:54 | the option text is never longer than the token it comes from |
| Binders.OptionTextIsDashFreeSuffix | Sources/CommandProperty.swift:54 | the option text is the suffix left after all leading dashes, and it does not itself start with a dash |
| Binders.FieldName | Sources/CommandProperty.swift:53 | the bound name is the label with its first character (the `_`) removed |
| Binders.MatchFormsAgree | Sources/CommandProperty.swift:52-65 | for a marker token, the `if`/`else if` matching of `CommandFlag.set` accepts it exactly when the ternary matching of `CommandOption.set` does |
| Binders.LongFormMatches | Sources/CommandProperty.swift:55 | any number of dashes followed by the field name matches, strict or not |
| Binders.ShortFormMatchesIffNotStrict | Sources/CommandProperty.swift:59-65 | "-" plus the first letter of a longer name matches exactly when the flag is not strict |
| Binders.FirstMarker | Sources/CommandProperty.swift:103-105 | the scan position is the first marker at or after the start, or the end when there is none |
| Binders.TrailingStart | Sources/CommandProperty.swift:230 | the start of the inputs follows the last marker, or is 0 when there is none, and no marker follows it |
| Binders.FlagFrom | Sources/CommandProperty.swift:49-69 | scanning from an offset: with no matching marker the value and the tokens are unchanged; otherwise the value is toggled and only the first matching marker is removed |
| Binders.SetFlag | Sources/CommandProperty.swift:46-70 | `CommandFlag.set`: with no matching marker, value and tokens are unchanged; otherwise the value is negated once and exactly the first matching marker is removed |
| Binders.FlagTogglesIffConsumes | Sources/CommandProperty.swift:55-65 | the flag changes exactly when one token is removed, and stays the same exactly when the tokens are unchanged |
| Binders.FlagTwiceTogglesOnce | Sources/CommandProperty.swift:55-58 | a marker given twice toggles once, and its second copy stays in the list |
| Binders.SetOption | Sources/CommandProperty.swift:99-126 | `CommandOption.set` looks only at the first marker. No marker, or a first marker that does not match, binds nothing and consumes nothing. A match in last position traps. A match whose next token does not convert throws `conversion(str: next, arg: name)`. Otherwise the converted next token is bound and exactly the marker and the value are removed |
| Binders.OptionStopsAtFirstMarker | Sources/CommandProperty.swift:104-112 | a non-matching marker in front hides any matching marker after it |
| Binders.OptionBindRemovesTwo | Sources/CommandProperty.swift:119-121 | a bound option consumes no tokens or exactly two |
| Binders.SetOptions | Sources/CommandProperty.swift:150-179 | `CommandOptions.set` never throws. When the first marker matches, the field becomes the convertible tokens of the run up to the next marker, in order. The run is removed and the marker stays. Otherwise nothing changes |
| Binders.OptionsKeepsMarker | Sources/CommandProperty.swift:164-174 | after a match the marker is still in the list, at its old position, followed by the end or by the next marker |
| Binders.SetInput | Sources/CommandProperty.swift:201-211 | `CommandInput.set` never traps. An empty list binds nothing. Otherwise the last token, dash or not, is converted: on success only that token is removed; on failure it throws `conversion(str: last)` |
| Binders.InputNeverMissing | Sources/CommandProperty.swift:190-199 | `missingInput` is never thrown |
| Binders.SetInputs | Sources/CommandProperty.swift:226-234 | `CommandInputs.set` never throws. It removes every token after the last marker and binds the convertible ones in order. What is left is a prefix of the list that is empty or ends with a marker, and an empty list keeps the default |
| Binders.InputsLeaveNothingToTake | Sources/CommandProperty.swift:229-233 | binding `@Inputs` again on what it left keeps those tokens, and unless none are left it overwrites the field, default included, with no values |
| Conversion.ParseOptional | Sources/CommandProperty.swift:251-256 | converting to `Optional` never fails: an unconvertible token becomes nil and a convertible one becomes its value |
| Conversion.OptionalStringNilDoesNotRoundTrip | Sources/CommandProperty.swift:251-261 | nil's description "nil" converts back to the string "nil", not to nil |
| Conversion.OptionalStringRoundTrip | Sources/CommandProperty.swift:251-261 | a present string survives description followed by conversion |
| Conversion.FromRawValue | Sources/CommandProperty.swift:263-266 | the result is a case whose raw value is the string, and there is none exactly when no case has that raw value |
| Conversion.ViaRawRoundTrip | Sources/CommandProperty.swift:271-277 | when the raw type reads back its own description and `init(rawValue:)` recovers the case from its raw value, converting the case's description gives the case back |
| Conversion.ViaRawNeedsRawRoundTrip | Sources/CommandProperty.swift:272 | when the raw type cannot read back the description of the case's raw value, the conversion fails, whatever `init(rawValue:)` would do |
| Conversion.RawStringRoundTrip | Sources/CommandProperty.swift:263-268 | with distinct raw values, converting a case's description gives the case back |
| Command.OptionalIsFlag | Sources/CommandProperty.swift:19-22 | every wrapper that is optional is also a flagged one |
| Command.CollectFrom | Sources/Command.swift:37-45 | collected entries name participating fields, carry those fields' labels and wrappers, and are in declaration order |
| Command.CollectFromComplete | Sources/Command.swift:37-45 | every participating field from the start position on is collected |
| Command.Collect | Sources/Command.swift:37-45 | the entries are exactly the fields whose label starts with "_" and that hold a wrapper, in declaration order |
| Command.Partition | Sources/Command.swift:49-50 | the partition is a split: the kept part satisfies the test, the rest fails it, and nothing is lost or added |
| Command.Tokens | Sources/Command.swift:58 | the token list is the command line without its first element |
| Command.SetProperty | Sources/CommandProperty.swift:8-11 | a bound wrapper keeps its kind (`isFlag`, `isOptional`); flags, multi-options and multi-inputs always bind; only a single option can trap |
| Command.CompileAll | Sources/Command.swift:7-20 | `compile(for:)` keeps the number of fields and which fields participate, and never changes a non-participating field. An error exits with status 2. The only trap is the option subscript |
| Command.ReadArguments | Sources/Command.swift:34-78 | with no participating field nothing is bound and no token is consumed. More than one positional field fails the assertion. An exit has status 2. Non-participating fields are never changed |
| Command.BindGroups | Sources/Command.swift:67-76 | the three group passes keep the field count and never change non-participating fields; an exit has status 2 |
| CommandLaws.CompileAllAppend | Sources/Command.swift:60-76 | binding two lists of entries one after the other is binding the first, then the second on what the first left |
| CommandLaws.ExitsAtFirstError | Sources/Command.swift:12-17 | an exit comes from the first binder that throws. The binders before it completed and their fields are written back. The failing field is not. The reason is that binder's error |
| CommandLaws.InfallibleCompletes | Sources/Command.swift:52 | a pass over flags, multi-options and multi-inputs always completes, whatever the tokens: unknown markers are never reported |
| CommandLaws.OptionalGroupIsEmpty | Sources/Command.swift:49-50 | once the flagged entries are taken out, no optional entry is left, so the optional pass never runs |
| CommandLaws.GroupsAreFlaggedThenPositional | Sources/Command.swift:67-76 | the group passes bind all flagged entries in declaration order, then the positional ones |
| CommandLaws.ReadArgumentsIsOnePass | Sources/Command.swift:47-76 | when there are wrapped fields and at most one positional one, `readArguments` binds every flagged field in declaration order and then the positional one, on the tokens the flagged ones left |
| CommandLaws.GroupsOfOne | Sources/Command.swift:49-50 | a single entry lands in the flagged group exactly when it is a flag kind |
| CommandLaws.SingleInputBinding | Sources/Command.swift:34-78 | a command with one `@Input` binds the last token and leaves the others. With no token it keeps the default. An unconvertible last token exits with status 2 |
| CommandLaws.CompileFirst | Sources/Command.swift:60-64 | after the first binder binds, the rest of the pass runs on the written-back fields and the tokens it left |
| RunExample.ParseRunMode | Scripts/Examples/run.swift:7-14 | exactly the strings "start", "pause" and "stop" convert |
| RunExample.DescriptionRoundTrip | Scripts/Examples/run.swift:4-14 | every mode converts back from its description |
| RunExample.ParseIsInverse | Scripts/Examples/run.swift:7-14 | a string converts to a mode exactly when it is that mode's description |
| RunExample.AnnouncementNamesMode | Scripts/Examples/run.swift:20-25 | the three modes print three different lines, each beginning with the name of its mode |
| RunExample.CaseMatters | Scripts/Examples/run.swift:12 | "Start", "STOP" and "" do not convert |
| RunExample.AgreesWithRawValue | Sources/CommandProperty.swift:263-266 | the hand-written conversion agrees with the `RawRepresentable` one |
| RunExample.RunBinding | Scripts/Examples/run.swift:18-19 | with no argument the mode stays `.start`. Otherwise the last argument must name a mode, and anything else exits with status 2 and the conversion reason |
| RunExample.RunIgnoresEarlierTokens | Scripts/Examples/run.swift:19 | `run -x stop` binds `.stop` and leaves "-x" unreported |
| GreetingExample.GreetingBinding | Scripts/Examples/greeting.swift:5 | binding always completes: no argument keeps nil, otherwise the last argument is `person` and the others are left |
| GreetingExample.GreetingMessage | Scripts/Examples/greeting.swift:7-9 | the message is "Hello!" with no argument and "Hello, <last argument>!" otherwise |
| GreetingExample.HelloWorldBindsVerbatim | Tests/CommandTests/CommandTests.swift:5-10 | "Hello World!" binds verbatim |
| GreetingExample.MarkerBecomesPerson | Sources/CommandProperty.swift:204-207 | a dash token in last position is accepted as the person |
| GreetingsExample.GreetingsEntries | Scripts/Examples/greetings.swift:5-7 | the three fields are collected in declaration order, with `debug` strict |
| GreetingsExample.GreetingsGroups | Sources/Command.swift:49-50 | the two flags form the flagged group and `people` is the one positional field |
| GreetingsExample.GreetingsBinding | Scripts/Examples/greetings.swift:5-7 | binding runs `debug` (strict), then `informal`, then `people`, which takes the tokens after the last marker the flags left |
| GreetingsExample.GreetingsReadsAll | Sources/Command.swift:67-76 | for this command `readArguments` is one pass over the three entries in declaration order |
| GreetingsExample.DebugIgnoresShortForm | Scripts/Examples/greetings.swift:5 | "-d" toggles neither flag, because `@Flag(true)` makes `debug` strict, and stays behind |
| GreetingsExample.DashD | Sources/CommandProperty.swift:55-65 | "-d" matches neither "debug" (strict) nor "informal" |
| GreetingsExample.InformalPair | Scripts/Examples/greetings.swift:6-7 | `-i Ann Bob` sets `informal` and binds `people` to ["Ann", "Bob"] |
| GreetingsExample.DashI | Sources/CommandProperty.swift:59-65 | "-i" matches "informal" by its first letter and does not match the strict "debug" |
| GreetingsExample.GreetLines | Scripts/Examples/greetings.swift:9-24 | with nobody to greet, one "<prefix>!" line; otherwise one "<prefix>, <person>!" line per person, in order. The prefix is "Hey" when informal and "Hello" otherwise, and each line goes to `debugPrint` when debugging |
| ToggleExample.ToggleTests | Tests/CommandTests/CommandTests.swift:12-25 | "-toggle" turns false into true, and "-t" turns true into false |
| ToggleExample.ToggleBinding | Tests/CommandTests/CommandTests.swift:45-58 | the plain `let` field takes no part, and binding the command is binding its flag |
| Common.LowerIdempotent | Scripts/license.swift:210-211 | lowercasing twice is lowercasing once |
| Common.LowerHasNoUpper | Scripts/license.swift:174 | a lowercased string has no upper-case letter |
| Common.CompactMap | Sources/CommandProperty.swift:171 | no more values than tokens, each one the conversion of some token. When every token converts, all values come in token order. When none converts, the result is empty |
| Common.Filter | Sources/Command.swift:49-50 | every kept element passes the test and comes from the input, and every passing element is kept |
| Text.Split | Scripts/swift-toolchain.swift:210 | every piece is non-empty and free of the separator |
| Text.SplitCovers | Scripts/swift-toolchain.swift:210 | the text is exactly its pieces, in order, with runs of separators before, between and after them, and at least one separator between two pieces: no character other than a separator is dropped and no piece is cut except at a separator |
| Text.SplitJoin | Scripts/swift-toolchain.swift:210-222 | splitting undoes joining for pieces that are non-empty and free of the separator |
| Text.SplitIsStable | Scripts/swift-toolchain.swift:210-222 | joining what `split` produced and splitting again gives the same pieces |
| License.FirstLowercased | Scripts/license.swift:174 | the position is that of the first key whose lowercase form is the input, or the end when none is |
| License.ResolvedKey | Scripts/license.swift:173-181 | nil exactly when no key lowercases to the input. Otherwise the result is a key of the table: the first match, redirected when it is a family key |
| License.RedirectStaysInTable | Scripts/license.swift:175-179 | the family keys redirect to keys of the table |
| License.ResolvesToFirstMatch | Scripts/license.swift:173-181 | the first matching key wins, and it is returned as is unless it is "CC", "GPL" or "LGPL" |
| License.FamiliesRedirect | Scripts/license.swift:175-179 | "cc", "gpl" and "lgpl" resolve to "CC0-1.0", "GPL-3.0" and "LGPL-3.0" |
| License.MitResolvesToItself | Scripts/license.swift:179 | an ordinary key such as "mit" resolves to its own table key |
| License.UppercaseNeverResolves | Scripts/license.swift:173-174 | input holding an upper-case letter never resolves, because it is compared as given |
| License.ContainsIffResolves | Scripts/license.swift:216-219 | `containsLowercased` holds exactly when `resolvedKey` finds a key |
| License.KeyFor | Scripts/license.swift:210-211 | `init?(_:)` finds a key exactly when some table key has the same lowercase form as the description; the key fetched is the first such one, redirected when it is a family key, and is itself a key of the table |
| License.KeyForIgnoresCase | Scripts/license.swift:210-211 | descriptions that differ only in ASCII case find the same key |
| License.KeyForFindsEveryKey | Scripts/license.swift:134-171 | every table key, spelled as in the table, is found |
| License.KeyForRedirects | Scripts/license.swift:177 | any spelling of "gpl" is redirected to "GPL-3.0" |
| License.Descriptions | Scripts/license.swift:16-21 | an empty table lists nothing |
| License.DescriptionsLines | Scripts/license.swift:16-21 | the listing has one line per entry, in table order: the name alone when it equals its description, "name, description" otherwise |
| Toolchain.FirstExport | Scripts/swift-toolchain.swift:213-214 | the position of the first line starting with "export TOOLCHAINS", or the end when there is none |
| Toolchain.DropMentions | Scripts/swift-toolchain.swift:234-235 | `removeAll` keeps exactly the lines that do not mention "export TOOLCHAINS" |
| Toolchain.ResetRemovesEveryExport | Scripts/swift-toolchain.swift:226-236 | after a reset no line starts with the export prefix, and the lines before the first export are unchanged |
| Toolchain.ResetIdempotent | Scripts/swift-toolchain.swift:226-236 | resetting twice is resetting once |
| Toolchain.SetAppendsWithoutExport | Scripts/swift-toolchain.swift:219-221 | without an export line, setting appends "export TOOLCHAINS=<id>", both as written and as intended |
| Toolchain.SetAsWrittenIsReset | Scripts/swift-toolchain.swift:212-218 | with an export line present, the script's `setIdentifier` gives exactly `resetIdentifier`'s lines |
| Toolchain.SetAsWrittenLosesExport | Scripts/swift-toolchain.swift:212-218 | a file holding only "export TOOLCHAINS=old", set to "new", ends up empty |
| Toolchain.SetLeavesOneExport | Scripts/swift-toolchain.swift:208-224 | after setting, exactly one line starts with the export prefix, and it is "export TOOLCHAINS=<id>" |
| Toolchain.SetIdempotent | Scripts/swift-toolchain.swift:208-224 | setting the same identifier twice is setting it once |
| Toolchain.ResetRoundTrip | Scripts/swift-toolchain.swift:226-239 | reading back the written file gives exactly the reset lines, so no blank line appears |
| Toolchain.SetRoundTrip | Scripts/swift-toolchain.swift:208-223 | for an identifier without a newline, reading back the written file gives exactly the set lines |
| Toolchain.ShortVersionDropsLast | Scripts/swift-toolchain.swift:180-181 | the short version of a dotted version is its components without the last one |
| Toolchain.GetIdentifier | Scripts/swift-toolchain.swift:172-189 | the identifier of the first `.xctoolchain` that has an identifier and is named by it, by its short version or by its name; nil exactly when there is none |
| Toolchain.IdentifierSelectsItself | Scripts/swift-toolchain.swift:176-177 | an identifier typed in full selects its toolchain when no earlier toolchain is named by it |
| Toolchain.GetVersionWithIdentifier | Scripts/swift-toolchain.swift:192-206 | the version of the first `.xctoolchain` whose identifier is exactly the input and that has a version; nil exactly when there is none |
| Toolchain.VersionlessMatchIsSkipped | Scripts/swift-toolchain.swift:196-201 | a matching toolchain without a version is skipped, not a dead end |
| Base64.ValueOf | Scripts/supergenpass.swift:106 | a character has a value exactly when it is one of the 64 digits of the alphabet, and that value is below 64 |
| Base64.DigitRoundTrip | Scripts/supergenpass.swift:106 | each of the 64 values is the value of its own digit |
| Base64.EncodeGroup | Scripts/supergenpass.swift:106 | three bytes become four alphabet digits |
| Base64.EncodeTail | Scripts/supergenpass.swift:106 | one or two final bytes become four characters: digits, then padding |
| Base64.Encode | Scripts/supergenpass.swift:106 | the encoding is four characters for each started group of three bytes |
| Base64.EncodeShape | Scripts/supergenpass.swift:106 | the encoding is alphabet digits followed by 0, 1 or 2 `=`, by the length modulo 3 |
| Base64.GroupValue | Scripts/supergenpass.swift:106 | four digits decode to three bytes |
| Base64.DecodeEncode | Scripts/supergenpass.swift:106 | decoding the encoding gives back the bytes: the encoding loses nothing |
| Base64.EncodeInjective | Scripts/supergenpass.swift:106 | different byte strings have different encodings |
| Base64.DigestEncoding | Scripts/supergenpass.swift:103-106 | a 16-byte digest encodes to 22 digits followed by "==" |
| SuperGenPass.ValidNeedsThree | Scripts/supergenpass.swift:87-93 | a valid password has at least three characters: a lower-case first letter, an upper-case letter and a digit are distinct |
| SuperGenPass.Utf8Char | Scripts/supergenpass.swift:103 | a character's UTF-8 encoding has one to four bytes. It is a single byte equal to the code exactly for ASCII. Otherwise it has a lead byte of at least 0xC0 and continuation bytes in 0x80..0xBF |
| SuperGenPass.Utf8OfAscii | Scripts/supergenpass.swift:103 | ASCII text encodes to one byte per character, equal to its code |
| SuperGenPass.Scramble | Scripts/supergenpass.swift:107-109 | each character is mapped on its own: '=' to 'A', '+' to '9', '/' to '8' |
| SuperGenPass.ScrambleAlphanumeric | Scripts/supergenpass.swift:106-109 | substituting Base64 output leaves only ASCII letters and digits |
| SuperGenPass.RoundAlphanumeric | Scripts/supergenpass.swift:102-109 | whatever the hash, a round's output is ASCII letters and digits only |
| SuperGenPass.Seed | Scripts/supergenpass.swift:98 | the first text hashed is the secret, a colon, then the input |
| SuperGenPass.Prefix | Scripts/supergenpass.swift:113 | the prefix is the first `length` characters, or the whole text when it is shorter |
| SuperGenPass.FirstValid | Scripts/supergenpass.swift:99-113 | the loop of `pwgen` over any step: at least ten rounds. A negative length traps at the tenth. A password is the first valid prefix from round ten on, and no earlier such round gave a valid one |
| SuperGenPass.Pwgen | Scripts/supergenpass.swift:95-114 | `pwgen` with the hash as a parameter. The result is the prefix of the first round, from the tenth on, that gives a valid password; it is letters and digits only. A negative length traps. A length below 3 never yields a password |
| SuperGenPass.ShortPrefixNeverValid | Scripts/supergenpass.swift:87-93 | a prefix shorter than 3 characters is never a valid password |
| SuperGenPass.PasswordAlphanumeric | Scripts/supergenpass.swift:101-113 | after at least one round, every prefix is letters and digits only |
| SuperGenPass.Dispatch | Scripts/supergenpass.swift:13-32 | a secret without an input exits with status 2 and "input must be included". An input generates, with the secret given or else the prompted one, and length `length ?? 10`. Neither option goes to the random path |
| SuperGenPass.PromptedSecretAgrees | Scripts/supergenpass.swift:20-31 | a secret typed at the prompt is used exactly as one given with `-secret` |

## Left out

- Reflection (`_forEachFieldWithKeyPath`), key paths and `as!` casts are replaced by a list of fields addressed by position.
- `exit(2, reason)` and the process end are modelled as the `Exited` outcome. Failed `assert`s and out-of-range subscripts are modelled as `Crashed`.
- Command.ReadArguments: the `assert` at Sources/Command.swift:53-56 is checked only in debug (`-Onone`) builds. The model shows the debug behaviour, where more than one positional field traps. In an optimised build the assertion is compiled out, and the last pass binds every positional field in declaration order on the tokens the previous fields left.
- Error reasons interpolate `Input.self`. The model carries the type's name as a string and does not reproduce Swift's printing of generic type names.
- The `Command` and `AsyncCommand` entry points, `callAsCommand` and the `async` variants are concurrency and process glue.
- The `Shell` helpers `drop(where:)` and `notEmpty` are not part of this model. `drop(where:)` is modelled as a partition into (matching, rest), as its use at Sources/Command.swift:48-50 requires.
- Element conversion (`Int`, `[T]`, `Duration` and so on) is the `convert` parameter.
- Binders.OptionText, Binders.FlagMatches, Binders.OptionMatches: Swift's `count`, `first`, `hasPrefix` and `drop(while:)` work on `Character`s, which are grapheme clusters. The model works on Unicode scalars. The two differ for a name that holds a combining mark: `é` written as `e` followed by U+0301 is one `Character` but two scalars, so a short form `-é` that Swift accepts as a single-letter option is not one letter in the model.
- The examples use `print` and `debugPrint`. Their lines are values: `Plain` or `Debug`, with the text. The escaping `debugPrint` adds is left out.
- `lowercased()` is modelled as ASCII lower-casing. Unicode case mapping is left out.
- `license`: fetching through `gh`, the MD5-named cache, JSON decoding and the terminal view are I/O.
- License.Descriptions: its own contract states only the empty table. `License.DescriptionsLines` states the listing, one line per entry in table order, for every table whose keys are non-empty and whose keys and descriptions hold no newline. It is not instantiated for `AllCases`: establishing that the literal table is newline-free means checking its strings character by character, and that exceeds the verifier's resource limit, so the fact about the concrete table is read off its literal rather than proved.
- `swift-toolchain`: reading and writing the file, `Bundle` look-ups, `setenv` and the listing are I/O. A toolchain folder is a record of its name without extension, its extension, and its optional identifier and version.
- `swift-toolchain`: `split(separator: .newline)` splits on `\n` only. A `\r\n` pair, one character in Swift, is not modelled.
- `supergenpass`: MD5 is the `hash` parameter. `getpass` becomes the `prompted` parameter of `Dispatch`. The random-password path (lines 33-61) uses `randomElement` and is only recognised as `RandomPasswords`.
- `supergenpass`: the regular expressions are character predicates. `[\d]` is taken as ASCII digits; this is exact for round output, which is ASCII. `NSString` lengths count UTF-16 units, while the model counts characters. They agree on round output, and the first validity check comes only after ten rounds.
- SuperGenPass.Pwgen: the loop has no bound in the source. The model takes a `fuel` bound on the number of rounds and returns `OutOfFuel` when it runs out. For a length from 0 to 2 the source loops forever, which the model shows as always running out of fuel.
- SuperGenPass.Pwgen: `pwgen` never returns nil, so the `.throwing(reason:)` branch of `main` cannot fire and is not modelled.
- Package.swift and the other scripts (calorie, notify, stopwatch, sz, timer, when) are not part of this model.

Behaviour of the code a user might not expect:

- A matched `@Option` marker in last position subscripts past the end, which traps.
- `@Option` and `@Options` look only at the first marker in the list. A non-matching first marker ends the scan.
- `@Options` and `@Inputs` silently drop tokens that do not convert.
- `@Options` leaves its marker in the list.
- `@Inputs` takes only the tokens after the last marker; earlier tokens stay in the list.
- Binding order is: all flagged wrappers (flags, options, multi-options) in declaration order, then the positional one. No optional wrapper is left for the middle pass (`CommandLaws.OptionalGroupIsEmpty`).
- A conversion error ends the process with status 2.
- Leftover tokens, unknown markers included, are never reported.

## Findings

| source | as written | input that shows it | evidently intended | confidence | as-written member | corrected member |
|---|---|---|---|---|---|---|
| Scripts/swift-toolchain.swift:213-218 | `setIdentifier` overwrites the first export line with the new one. It then runs `removeAll` for lines containing "export TOOLCHAINS" from that same index on, which removes the new line too, so the result equals `resetIdentifier`'s | a file holding only `export TOOLCHAINS=old`, set to `new`, becomes empty | the new line replaces the old export and only later duplicates are removed, leaving exactly one `export TOOLCHAINS=new` | high; not executed | Toolchain.SetAsWrittenLosesExport | Toolchain.SetLeavesOneExport |

=== FILE: base64.dfy ===
/**
 * Base 64 encoding as section 4 of RFC 4648 defines it (the encoding
 * `Data.base64EncodedString()` produces): every 3 octets become 4
 * characters of the 64-character alphabet, and a final group of 1 or 2
 * octets is padded with "=". The decoder is the partner that shows no
 * information is lost.
 */
module Base64 {
  import opened Common

  newtype byte = x: int | 0 <= x < 256

  /** The alphabet of section 4 of RFC 4648: A-Z, a-z, 0-9, "+", "/". */
  function Digit(v: int): (c: char)
    requires 0 <= v < 64
  {
    if v < 26 then ('A' as int + v) as char
    else if v < 52 then ('a' as int + (v - 26)) as char
    else if v < 62 then ('0' as int + (v - 52)) as char
    else if v == 62 then '+'
    else '/'
  }

  const Pad: char := '='

  /** A character of the alphabet. */
  predicate IsDigit(c: char) {
    IsAsciiUpper(c) || IsAsciiLower(c) || IsAsciiDigit(c) || c == '+' || c == '/'
  }

  /** The value a character of the alphabet stands for; -1 for any other character. */
  function ValueOf(c: char): (v: int)
    ensures IsDigit(c) <==> 0 <= v < 64
    ensures !IsDigit(c) ==> v == -1
  {
    if IsAsciiUpper(c) then c as int - 'A' as int
    else if IsAsciiLower(c) then c as int - 'a' as int + 26
    else if IsAsciiDigit(c) then c as int - '0' as int + 52
    else if c == '+' then 62
    else if c == '/' then 63
    else -1
  }

  /** Every value is written with a distinct character of the alphabet. */
  lemma DigitRoundTrip(v: int)
    requires 0 <= v < 64
    ensures IsDigit(Digit(v)) && ValueOf(Digit(v)) == v
  {
  }

  /** One full group: 3 octets as 4 characters, 6 bits each, most significant first. */
  function EncodeGroup(b0: byte, b1: byte, b2: byte): (s: string)
    ensures |s| == 4 && forall i :: 0 <= i < 4 ==> IsDigit(s[i])
  {
    DigitRoundTrip(b0 as int / 4);
    DigitRoundTrip((b0 as int % 4) * 16 + b1 as int / 16);
    DigitRoundTrip((b1 as int % 16) * 4 + b2 as int / 64);
    DigitRoundTrip(b2 as int % 64);
    [ Digit(b0 as int / 4),
      Digit((b0 as int % 4) * 16 + b1 as int / 16),
      Digit((b1 as int % 16) * 4 + b2 as int / 64),
      Digit(b2 as int % 64) ]
  }

  /** A final group of one or two octets, filled up with zero bits and padded to 4 characters. */
  function EncodeTail(b: seq<byte>): (s: string)
    requires 1 <= |b| <= 2
    ensures |s| == 4
    ensures forall i :: 0 <= i < 4 - PadCount(|b|) ==> IsDigit(s[i])
    ensures forall i :: 4 - PadCount(|b|) <= i < 4 ==> s[i] == Pad
  {
    var b0 := b[0] as int;
    DigitRoundTrip(b0 / 4);
    if |b| == 1 then
      DigitRoundTrip((b0 % 4) * 16);
      [Digit(b0 / 4), Digit((b0 % 4) * 16), Pad, Pad]
    else
      var b1 := b[1] as int;
      DigitRoundTrip((b0 % 4) * 16 + b1 / 16);
      DigitRoundTrip((b1 % 16) * 4);
      [Digit(b0 / 4), Digit((b0 % 4) * 16 + b1 / 16), Digit((b1 % 16) * 4), Pad]
  }

  /** The number of "=" that end the encoding of `n` octets. */
  function PadCount(n: nat): nat {
    (3 - n % 3) % 3
  }

  /** `base64EncodedString()` */
  function Encode(b: seq<byte>): (s: string)
    ensures |s| == 4 * ((|b| + 2) / 3)
  {
    if |b| == 0 then ""
    else if |b| < 3 then EncodeTail(b)
    else EncodeGroup(b[0], b[1], b[2]) + Encode(b[3..])
  }

  /** An encoding is alphabet characters followed by as many "=" as the last group lacks octets. */
  lemma {:induction false} EncodeShape(b: seq<byte>)
    ensures forall i :: 0 <= i < |Encode(b)| - PadCount(|b|) ==> IsDigit(Encode(b)[i])
    ensures forall i :: |Encode(b)| - PadCount(|b|) <= i < |Encode(b)| ==> Encode(b)[i] == Pad
    decreases |b|
  {
    if |b| >= 3 {
      var group := EncodeGroup(b[0], b[1], b[2]);
      var rest := Encode(b[3..]);
      var pad := PadCount(|b|);
      EncodeShape(b[3..]);
      assert PadCount(|b[3..]|) == pad by {
        assert |b[3..]| % 3 == |b| % 3;
      }
      assert Encode(b) == group + rest;
      ShapeAfterGroup(group, rest, pad);
    }
  }

  lemma ShapeAfterGroup(group: string, rest: string, pad: nat)
    requires |group| == 4 && forall i :: 0 <= i < 4 ==> IsDigit(group[i])
    requires pad <= |rest|
    requires forall i :: 0 <= i < |rest| - pad ==> IsDigit(rest[i])
    requires forall i :: |rest| - pad <= i < |rest| ==> rest[i] == Pad
    ensures var s := group + rest;
            && (forall i :: 0 <= i < |s| - pad ==> IsDigit(s[i]))
            && (forall i :: |s| - pad <= i < |s| ==> s[i] == Pad)
  {
    var s := group + rest;
    forall i | 0 <= i < |s| - pad ensures IsDigit(s[i]) {
      if i >= 4 { assert s[i] == rest[i - 4]; }
    }
    forall i | |s| - pad <= i < |s| ensures s[i] == Pad {
      assert s[i] == rest[i - 4];
    }
  }

  /** The three octets four alphabet characters stand for, 6 bits each. */
  function GroupValue(q: string): (b: seq<byte>)
    requires |q| >= 4 && IsDigit(q[0]) && IsDigit(q[1]) && IsDigit(q[2]) && IsDigit(q[3])
    ensures |b| == 3
  {
    var v0, v1, v2, v3 := ValueOf(q[0]), ValueOf(q[1]), ValueOf(q[2]), ValueOf(q[3]);
    [(v0 * 4 + v1 / 16) as byte, ((v1 % 16) * 16 + v2 / 4) as byte, ((v2 % 4) * 64 + v3) as byte]
  }

  /** The octets of the last four characters, the last one or two possibly padding. */
  function DecodeLast(q: string): Option<seq<byte>>
    requires |q| == 4
  {
    if !IsDigit(q[0]) || !IsDigit(q[1]) then None
    else
      var v0, v1 := ValueOf(q[0]), ValueOf(q[1]);
      var b0 := (v0 * 4 + v1 / 16) as byte;
      if q[2] == Pad && q[3] == Pad then Some([b0])
      else if !IsDigit(q[2]) then None
      else
        var v2 := ValueOf(q[2]);
        var b1 := ((v1 % 16) * 16 + v2 / 4) as byte;
        if q[3] == Pad then Some([b0, b1])
        else if !IsDigit(q[3]) then None
        else Some(GroupValue(q))
  }

  /** The inverse of `Encode`: nil for text that is not an encoding. */
  function Decode(s: string): (r: Option<seq<byte>>)
    decreases |s|
  {
    if |s| == 0 then Some([])
    else if |s| < 4 then None
    else if |s| == 4 then DecodeLast(s)
    else if !(IsDigit(s[0]) && IsDigit(s[1]) && IsDigit(s[2]) && IsDigit(s[3])) then None
    else
      match Decode(s[4..])
      case None => None
      case Some(rest) => Some(GroupValue(s) + rest)
  }

  /** The six-bit pieces of a full group put back together. */
  lemma GroupArithmetic(b0: int, b1: int, b2: int)
    requires 0 <= b0 < 256 && 0 <= b1 < 256 && 0 <= b2 < 256
    ensures (b0 / 4) * 4 + ((b0 % 4) * 16 + b1 / 16) / 16 == b0
    ensures (((b0 % 4) * 16 + b1 / 16) % 16) * 16 + ((b1 % 16) * 4 + b2 / 64) / 4 == b1
    ensures (((b1 % 16) * 4 + b2 / 64) % 4) * 64 + b2 % 64 == b2
  {
  }

  /** Decoding an encoding gives the octets back. */
  lemma {:induction false} DecodeEncode(b: seq<byte>)
    ensures Decode(Encode(b)) == Some(b)
    decreases |b|
  {
    if 1 <= |b| <= 2 {
      DecodeTail(b);
    } else if |b| >= 3 {
      var q := EncodeGroup(b[0], b[1], b[2]);
      var rest := Encode(b[3..]);
      assert Encode(b) == q + rest;
      DecodeGroup(b[0], b[1], b[2]);
      assert [b[0], b[1], b[2]] + b[3..] == b;
      if |b| == 3 {
        assert q + rest == q;
        DecodeOneGroup(q);
        assert b == [b[0], b[1], b[2]];
      } else {
        DecodeEncode(b[3..]);
        DecodeGroupThenRest(q, rest, b[3..]);
        assert Decode(q + rest) == Some([b[0], b[1], b[2]] + b[3..]);
      }
    }
  }

  /** Four alphabet characters alone decode to their group. */
  lemma DecodeOneGroup(q: string)
    requires |q| == 4 && forall i :: 0 <= i < 4 ==> IsDigit(q[i])
    ensures Decode(q) == Some(GroupValue(q))
  {
    assert q[2] != Pad && q[3] != Pad;
  }

  /** A full group in front of a decodable rest decodes to its octets in front of the rest's. */
  lemma DecodeGroupThenRest(q: string, rest: string, r: seq<byte>)
    requires |q| == 4 && forall i :: 0 <= i < 4 ==> IsDigit(q[i])
    requires |rest| > 0 && Decode(rest) == Some(r)
    ensures Decode(q + rest) == Some(GroupValue(q) + r)
  {
    var s := q + rest;
    assert s[4..] == rest;
    assert s[0] == q[0] && s[1] == q[1] && s[2] == q[2] && s[3] == q[3];
    assert GroupValue(s) == GroupValue(q);
  }

  /** The characters of a full group give back its octets. */
  lemma DecodeGroup(b0: byte, b1: byte, b2: byte)
    ensures GroupValue(EncodeGroup(b0, b1, b2)) == [b0, b1, b2]
  {
    DigitRoundTrip(b0 as int / 4);
    DigitRoundTrip((b0 as int % 4) * 16 + b1 as int / 16);
    DigitRoundTrip((b1 as int % 16) * 4 + b2 as int / 64);
    DigitRoundTrip(b2 as int % 64);
    GroupArithmetic(b0 as int, b1 as int, b2 as int);
  }

  /** The padded final group gives back its one or two octets. */
  lemma DecodeTail(b: seq<byte>)
    requires 1 <= |b| <= 2
    ensures Decode(EncodeTail(b)) == Some(b)
  {
    var b0 := b[0] as int;
    DigitRoundTrip(b0 / 4);
    if |b| == 1 {
      DigitRoundTrip((b0 % 4) * 16);
      GroupArithmetic(b0, 0, 0);
      assert b == [b[0]];
      assert DecodeLast(EncodeTail(b)) == Some([b[0]]);
    } else {
      var b1 := b[1] as int;
      DigitRoundTrip((b0 % 4) * 16 + b1 / 16);
      DigitRoundTrip((b1 % 16) * 4);
      GroupArithmetic(b0, b1, 0);
      assert b == [b[0], b[1]];
      assert DecodeLast(EncodeTail(b)) == Some([b[0], b[1]]);
    }
  }

  /** Encoding is injective: different octets never share an encoding. */
  lemma EncodeInjective(a: seq<byte>, b: seq<byte>)
    requires Encode(a) == Encode(b)
    ensures a == b
  {
    DecodeEncode(a);
    DecodeEncode(b);
  }

  /** An MD5 digest, 16 octets, encodes to 24 characters ending in "==". */
  lemma DigestEncoding(b: seq<byte>)
    requires |b| == 16
    ensures |Encode(b)| == 24 && Encode(b)[22] == Pad && Encode(b)[23] == Pad
    ensures forall i :: 0 <= i < 22 ==> IsDigit(Encode(b)[i])
  {
    EncodeShape(b);
  }
}

=== FILE: binders.dfy ===
/**
 * The five property wrappers' `set` operations. Each one takes the field's
 * current value and the shared token list and produces either the new value
 * together with the tokens it left, a thrown `CommandError`, or a runtime
 * trap (the out-of-range subscript of an option marker in last position).
 *
 * The scanning binders are written as recursion over the `offset` of the
 * source's `while` loop; their contracts state the same behaviour in closed
 * form, in terms of the first marker token and the first matching token.
 */
module Binders {
  import opened Common

  /** `token.hasPrefix("-")`: the token is a marker candidate. */
  predicate IsMarker(token: string) {
    |token| > 0 && token[0] == '-'
  }

  /** `token.drop(while: { $0 == "-" })`: the option text of a marker. */
  function OptionText(token: string): (text: string)
    ensures |text| <= |token|
  {
    if |token| > 0 && token[0] == '-' then OptionText(token[1..]) else token
  }

  /**
   * The option text is what is left of the token after its leading run of
   * dashes: a suffix of the token that does not itself start with a dash.
   */
  lemma {:induction false} OptionTextIsDashFreeSuffix(token: string)
    ensures var text := OptionText(token);
            && text == token[|token| - |text|..]
            && (forall i :: 0 <= i < |token| - |text| ==> token[i] == '-')
            && (|text| > 0 ==> text[0] != '-')
  {
    if |token| > 0 && token[0] == '-' {
      OptionTextIsDashFreeSuffix(token[1..]);
    }
  }

  /** `label.dropFirst()`: the bound name of a field whose label is `_name`. */
  function FieldName(tag: string): (name: string)
    ensures |tag| > 0 ==> tag == [tag[0]] + name
    ensures |tag| == 0 ==> name == []
  {
    if |tag| == 0 then [] else tag[1..]
  }

  /**
   * The matching rule as `CommandFlag.set` writes it: the option text equals
   * the name, or, when not strict, it is one character equal to the name's
   * first character.
   */
  predicate FlagMatches(token: string, name: string, strict: bool) {
    && IsMarker(token)
    && (|| OptionText(token) == name
        || (!strict && |OptionText(token)| == 1 && |name| > 0 && OptionText(token)[0] == name[0]))
  }

  /**
   * The matching rule as `CommandOption.set` and `CommandOptions.set` write
   * it, with a conditional: a one-character option text is compared by first
   * character when not strict, anything else by equality.
   */
  predicate OptionMatches(token: string, name: string, strict: bool) {
    var option := OptionText(token);
    if !strict && |option| == 1 then |name| > 0 && option[0] == name[0] else option == name
  }

  /** The two spellings of the rule accept exactly the same marker tokens. */
  lemma MatchFormsAgree(token: string, name: string, strict: bool)
    requires IsMarker(token)
    ensures FlagMatches(token, name, strict) <==> OptionMatches(token, name, strict)
  {
  }

  /** The full name after any number of dashes is accepted, strict or not. */
  lemma {:induction false} LongFormMatches(dashes: nat, name: string, strict: bool)
    requires dashes > 0
    requires |name| > 0 ==> name[0] != '-'
    ensures FlagMatches(seq(dashes, _ => '-') + name, name, strict)
  {
    var token := seq(dashes, _ => '-') + name;
    DashesThenText(dashes, name);
  }

  lemma {:induction false} DashesThenText(dashes: nat, text: string)
    requires |text| > 0 ==> text[0] != '-'
    ensures OptionText(seq(dashes, _ => '-') + text) == text
  {
    if dashes > 0 {
      var token := seq(dashes, _ => '-') + text;
      assert token[1..] == seq(dashes - 1, _ => '-') + text;
      DashesThenText(dashes - 1, text);
    } else {
      assert seq(dashes, _ => '-') + text == text;
    }
  }

  /**
   * The one-letter short form "-x" is accepted exactly when the field is not
   * strict (for a name longer than one character).
   */
  lemma ShortFormMatchesIffNotStrict(name: string, strict: bool)
    requires |name| > 1 && name[0] != '-'
    ensures FlagMatches("-" + [name[0]], name, strict) <==> !strict
  {
    DashesThenText(1, [name[0]]);
    assert seq(1, _ => '-') == "-";
  }

  /** None of the tokens in `args[from..to]` is a marker. */
  predicate NoMarkerIn(args: seq<string>, from: nat, to: nat)
    requires from <= to <= |args|
  {
    forall j :: from <= j < to ==> !IsMarker(args[j])
  }

  /**
   * `firstIndex(where: { $0.hasPrefix("-") }) ?? endIndex` on the tokens
   * from `from` on.
   */
  function FirstMarker(args: seq<string>, from: nat): (i: nat)
    requires from <= |args|
    ensures from <= i <= |args|
    ensures NoMarkerIn(args, from, i)
    ensures i < |args| ==> IsMarker(args[i])
    decreases |args| - from
  {
    if from == |args| || IsMarker(args[from]) then from else FirstMarker(args, from + 1)
  }

  /** Any position with no marker before it and a marker or the end at it is the first marker. */
  lemma FirstMarkerUnique(args: seq<string>, from: nat)
    requires from <= |args|
    ensures forall i :: from <= i <= |args| && NoMarkerIn(args, from, i) && (i == |args| || IsMarker(args[i])) ==>
              FirstMarker(args, from) == i
  {
  }

  /**
   * `(lastIndex(where: { $0.hasPrefix("-") }) ?? -1) + 1`: where the run of
   * non-marker tokens at the end of the list begins.
   */
  function TrailingStart(args: seq<string>): (lower: nat)
    ensures lower <= |args|
    ensures lower == 0 || IsMarker(args[lower - 1])
    ensures forall j :: lower <= j < |args| ==> !IsMarker(args[j])
  {
    if |args| == 0 || IsMarker(args[|args| - 1]) then |args|
    else TrailingStart(args[..|args| - 1])
  }

  /**
   * The errors the wrappers declare. `OptionsConversion` and `MissingInput`
   * are declared by the source but no code path throws them.
   */
  datatype CommandError =
    | OptionConversion(str: string, arg: string)
    | OptionsConversion(str: string, arg: string)
    | MissingInput
    | InputConversion(str: string)

  /** `reason` of each error; `typeName` stands for the interpolated `Input.self`. */
  function Reason(e: CommandError, typeName: string): string {
    match e
    case OptionConversion(str, arg) =>
      arg + ": couldn't convert '" + str + "' to object of type " + typeName
    case OptionsConversion(str, arg) =>
      arg + ": couldn't convert '" + str + "' to object of type " + typeName
    case MissingInput => "missing input"
    case InputConversion(str) => "couldn't convert input '" + str + "' to type " + typeName
  }

  /**
   * What one `set` call does: it binds a value and leaves `rest` behind, it
   * throws a `CommandError`, or it traps.
   */
  datatype Outcome<+T> =
    | Bound(value: T, rest: seq<string>)
    | Thrown(error: CommandError)
    | Trapped

  // ---------------------------------------------------------------- Flag

  /** `CommandFlag.set`, scanning from `offset`. */
  function FlagFrom(value: bool, name: string, strict: bool, args: seq<string>, offset: nat)
    : (r: (bool, seq<string>))
    requires offset <= |args|
    ensures (forall j :: offset <= j < |args| ==> !FlagMatches(args[j], name, strict)) ==>
              r == (value, args)
    ensures forall i :: offset <= i < |args| && FlagMatches(args[i], name, strict) &&
              (forall j :: offset <= j < i ==> !FlagMatches(args[j], name, strict))
              ==> r == (!value, args[..i] + args[i + 1..])
    decreases |args| - offset
  {
    if offset == |args| then (value, args)
    else if FlagMatches(args[offset], name, strict) then (!value, args[..offset] + args[offset + 1..])
    else FlagFrom(value, name, strict, args, offset + 1)
  }

  /**
   * `CommandFlag.set`: the first matching marker toggles the value and is
   * the one token removed; without a match nothing changes.
   */
  function SetFlag(value: bool, name: string, strict: bool, args: seq<string>)
    : (r: (bool, seq<string>))
    ensures (forall j :: 0 <= j < |args| ==> !FlagMatches(args[j], name, strict)) ==>
              r == (value, args)
    ensures forall i :: 0 <= i < |args| && FlagMatches(args[i], name, strict) &&
              (forall j :: 0 <= j < i ==> !FlagMatches(args[j], name, strict))
              ==> r == (!value, args[..i] + args[i + 1..])
  {
    FlagFrom(value, name, strict, args, 0)
  }

  /** The list shrinks by one token exactly when the value was toggled. */
  lemma {:induction false} FlagTogglesIffConsumes(value: bool, name: string, strict: bool, args: seq<string>)
    ensures var (v, rest) := SetFlag(value, name, strict, args);
            (v != value <==> |rest| == |args| - 1) && (v == value <==> rest == args)
  {
    if i :| 0 <= i < |args| && FlagMatches(args[i], name, strict) {
      var k := FirstFlagMatch(args, name, strict, i);
      assert SetFlag(value, name, strict, args) == (!value, args[..k] + args[k + 1..]);
    }
  }

  /** Some match exists at or before `i`: pick the first one. */
  lemma {:induction false} FirstFlagMatch(args: seq<string>, name: string, strict: bool, i: nat)
    returns (k: nat)
    requires i < |args| && FlagMatches(args[i], name, strict)
    ensures k <= i && FlagMatches(args[k], name, strict)
    ensures forall j :: 0 <= j < k ==> !FlagMatches(args[j], name, strict)
  {
    if j :| 0 <= j < i && FlagMatches(args[j], name, strict) {
      k := FirstFlagMatch(args, name, strict, j);
    } else {
      k := i;
    }
  }

  /** A repeated flag is honoured once: the second marker stays in the list. */
  lemma FlagTwiceTogglesOnce(value: bool, token: string, name: string, strict: bool)
    requires FlagMatches(token, name, strict)
    ensures SetFlag(value, name, strict, [token, token]) == (!value, [token])
  {
    assert [token, token][..0] + [token, token][1..] == [token];
  }

  // -------------------------------------------------------------- Option

  /**
   * `CommandOption.set`. The scan ends at the first marker token. If it does
   * not match, nothing changes; if it does, the token right after it is
   * converted (dash or not): a success binds it and removes both tokens, a
   * failure throws with the list untouched, and a marker in last position
   * subscripts past the end.
   */
  function SetOption<V>(value: V, name: string, strict: bool, parse: string -> Option<V>,
                        args: seq<string>): (r: Outcome<V>)
    ensures (forall j :: 0 <= j < |args| ==> !IsMarker(args[j])) ==> r == Bound(value, args)
    ensures forall i :: 0 <= i < |args| && IsMarker(args[i]) && NoMarkerIn(args, 0, i) ==>
              (!OptionMatches(args[i], name, strict) ==> r == Bound(value, args))
    ensures forall i :: 0 <= i < |args| && IsMarker(args[i]) && NoMarkerIn(args, 0, i) ==>
              (OptionMatches(args[i], name, strict) && i + 1 == |args| ==> r == Trapped)
    ensures forall i :: (0 <= i < |args| - 1 && IsMarker(args[i]) && NoMarkerIn(args, 0, i) &&
                         OptionMatches(args[i], name, strict)) ==>
              (parse(args[i + 1]).None? ==> r == Thrown(OptionConversion(args[i + 1], name))) &&
              (parse(args[i + 1]).Some? ==> r == Bound(parse(args[i + 1]).value, args[..i] + args[i + 2..]))
  {
    var offset := FirstMarker(args, 0);
    FirstMarkerUnique(args, 0);
    if offset == |args| || !OptionMatches(args[offset], name, strict) then Bound(value, args)
    else if offset + 1 == |args| then Trapped
    else match parse(args[offset + 1])
      case None => Thrown(OptionConversion(args[offset + 1], name))
      case Some(v) => Bound(v, args[..offset] + args[offset + 2..])
  }

  /** A matching marker hidden behind a non-matching one is never reached. */
  lemma OptionStopsAtFirstMarker<V>(value: V, name: string, strict: bool, parse: string -> Option<V>,
                                    other: string, later: seq<string>)
    requires IsMarker(other) && !OptionMatches(other, name, strict)
    ensures SetOption(value, name, strict, parse, [other] + later) == Bound(value, [other] + later)
  {
    assert FirstMarker([other] + later, 0) == 0;
  }

  /** On success exactly two tokens, the marker and its value, are removed. */
  lemma OptionBindRemovesTwo<V>(value: V, name: string, strict: bool, parse: string -> Option<V>,
                                args: seq<string>)
    requires SetOption(value, name, strict, parse, args).Bound?
    ensures var r := SetOption(value, name, strict, parse, args);
            |r.rest| == |args| || |r.rest| == |args| - 2
  {
  }

  // ------------------------------------------------------------- Options

  /**
   * `CommandOptions.set`. On a match the value run is every token after the
   * marker up to the next marker or the end; the field becomes the
   * convertible ones in order, the run is removed, and the marker stays.
   * It never throws.
   */
  function SetOptions<V>(values: seq<V>, name: string, strict: bool, parse: string -> Option<V>,
                         args: seq<string>): (r: Outcome<seq<V>>)
    ensures r.Bound?
    ensures (forall j :: 0 <= j < |args| ==> !IsMarker(args[j])) ==> r == Bound(values, args)
    ensures forall i :: 0 <= i < |args| && IsMarker(args[i]) && NoMarkerIn(args, 0, i) ==>
              (!OptionMatches(args[i], name, strict) ==> r == Bound(values, args))
    ensures forall i, end :: (0 <= i < end <= |args| && IsMarker(args[i]) && NoMarkerIn(args, 0, i) &&
                              OptionMatches(args[i], name, strict) && NoMarkerIn(args, i + 1, end) &&
                              (end == |args| || IsMarker(args[end]))) ==>
              r == Bound(CompactMap(parse, args[i + 1..end]), args[..i + 1] + args[end..])
  {
    var offset := FirstMarker(args, 0);
    FirstMarkerUnique(args, 0);
    if offset == |args| || !OptionMatches(args[offset], name, strict) then Bound(values, args)
    else
      var lower := offset + 1;
      var upper := FirstMarker(args, lower);
      FirstMarkerUnique(args, lower);
      Bound(CompactMap(parse, args[lower..upper]), args[..lower] + args[upper..])
  }

  /** After a match the marker is still present, immediately followed by a marker or the end. */
  lemma OptionsKeepsMarker<V>(values: seq<V>, name: string, strict: bool, parse: string -> Option<V>,
                              args: seq<string>)
    requires var i := FirstMarker(args, 0); i < |args| && OptionMatches(args[i], name, strict)
    ensures var i := FirstMarker(args, 0);
            var rest := SetOptions(values, name, strict, parse, args).rest;
            i < |rest| && rest[i] == args[i] && (i + 1 == |rest| || IsMarker(rest[i + 1]))
  {
  }

  // --------------------------------------------------------------- Input

  /**
   * `CommandInput.set`: the last token, dash or not, is converted; a success
   * binds it and removes it alone, a failure throws with the list untouched,
   * and an empty list leaves everything as it was.
   */
  function SetInput<V>(value: V, parse: string -> Option<V>, args: seq<string>): (r: Outcome<V>)
    ensures !r.Trapped?
    ensures |args| == 0 ==> r == Bound(value, args)
    ensures r.Thrown? ==> |args| > 0 && parse(args[|args| - 1]).None?
                          && r.error == InputConversion(args[|args| - 1])
    ensures r.Bound? && |args| > 0 ==> parse(args[|args| - 1]) == Some(r.value)
                                       && r.rest + [args[|args| - 1]] == args
  {
    if |args| == 0 then Bound(value, args)
    else match parse(args[|args| - 1])
      case Some(v) => Bound(v, args[..|args| - 1])
      case None => Thrown(InputConversion(args[|args| - 1]))
  }

  /** `missingInput` is declared but never thrown. */
  lemma InputNeverMissing<V>(value: V, parse: string -> Option<V>, args: seq<string>)
    ensures SetInput(value, parse, args) != Thrown(MissingInput)
  {
  }

  // -------------------------------------------------------------- Inputs

  /**
   * `CommandInputs.set`: every token after the last marker is removed and
   * the field is overwritten with the convertible ones in order (possibly
   * none). An empty list keeps the default. Afterwards the list is empty or
   * ends with a marker. It never throws.
   */
  function SetInputs<V>(values: seq<V>, parse: string -> Option<V>, args: seq<string>)
    : (r: Outcome<seq<V>>)
    ensures r.Bound?
    ensures |args| == 0 ==> r == Bound(values, args)
    ensures |r.rest| <= |args| && r.rest == args[..|r.rest|]
    ensures |r.rest| == 0 || IsMarker(r.rest[|r.rest| - 1])
    ensures forall j :: |r.rest| <= j < |args| ==> !IsMarker(args[j])
    ensures |args| > 0 ==> r.value == CompactMap(parse, args[|r.rest|..])
  {
    if |args| == 0 then Bound(values, args)
    else
      var lower := TrailingStart(args);
      Bound(CompactMap(parse, args[lower..]), args[..lower])
  }

  /**
   * What `@Inputs` leaves has nothing more for it: binding again keeps the
   * tokens, and unless they ran out the field is overwritten with no values,
   * its default included.
   */
  lemma InputsLeaveNothingToTake<V>(values: seq<V>, again: seq<V>, parse: string -> Option<V>, args: seq<string>)
    ensures var rest := SetInputs(values, parse, args).rest;
            SetInputs(again, parse, rest) == Bound(if |rest| == 0 then again else [], rest)
  {
  }
}

=== FILE: command.dfy ===
/**
 * `readArguments`: collect the command's wrapped fields, partition them
 * into marker-based and positional ones, check that at most one positional
 * field remains, and bind them one after the other against one shared token
 * list, writing each bound wrapper back into the command value.
 *
 * Reflection is replaced by an explicit list of stored fields in
 * declaration order, and a key path by the field's position in that list.
 * Each wrapper's element type is known by its name; `convert(typeName,
 * token)` is that type's `init?(_:)`.
 */
module Command {
  import opened Common
  import opened Binders

  /** The five property wrappers, each with its configuration and current value. */
  datatype Property<V> =
    | CommandFlag(strict: bool, on: bool)
    | CommandOption(strict: bool, typeName: string, value: V)
    | CommandOptions(strict: bool, typeName: string, values: seq<V>)
    | CommandInput(typeName: string, value: V)
    | CommandInputs(typeName: string, values: seq<V>)
  {
    /** `isFlag`: true for the `FlaggedProperty` wrappers. */
    predicate IsFlag() {
      CommandFlag? || CommandOption? || CommandOptions?
    }

    /** `isOptional`: true for the option wrappers. */
    predicate IsOptional() {
      CommandOption? || CommandOptions?
    }

    /** The element type named in the wrappers' error texts. */
    function ElementType(): string {
      match this
      case CommandFlag(_, _) => "Bool"
      case CommandOption(_, t, _) => t
      case CommandOptions(_, t, _) => t
      case CommandInput(t, _) => t
      case CommandInputs(t, _) => t
    }
  }

  /** Every optional wrapper is also a flagged one. */
  lemma OptionalIsFlag<V>(p: Property<V>)
    ensures p.IsOptional() ==> p.IsFlag()
  {
  }

  /** A stored field: its storage label and, if it holds one, its wrapper. */
  datatype Field<V> = Field(tag: string, property: Option<Property<V>>)

  /** One element of `Properties`: label, position of the field, wrapper. */
  datatype Entry<V> = Entry(tag: string, index: nat, property: Property<V>)

  /** The field takes part in binding: its label starts with "_" and it holds a wrapper. */
  predicate Participates<V>(f: Field<V>) {
    |f.tag| > 0 && f.tag[0] == '_' && f.property.Some?
  }

  /**
   * The reflection walk from position `from` on: one entry per
   * participating field, in declaration order.
   */
  function CollectFrom<V>(fields: seq<Field<V>>, from: nat): (entries: seq<Entry<V>>)
    requires from <= |fields|
    ensures forall k :: 0 <= k < |entries| ==>
              && from <= entries[k].index < |fields|
              && Participates(fields[entries[k].index])
              && fields[entries[k].index] == Field(entries[k].tag, Some(entries[k].property))
    ensures forall k, l :: 0 <= k < l < |entries| ==> entries[k].index < entries[l].index
    decreases |fields| - from
  {
    if from == |fields| then []
    else
      var rest := CollectFrom(fields, from + 1);
      if Participates(fields[from]) then
        var e := Entry(fields[from].tag, from, fields[from].property.value);
        assert forall k :: 1 <= k < |[e] + rest| ==> ([e] + rest)[k] == rest[k - 1];
        [e] + rest
      else rest
  }

  /** No participating field is missed. */
  lemma {:induction false} CollectFromComplete<V>(fields: seq<Field<V>>, from: nat, i: nat)
    requires from <= i < |fields| && Participates(fields[i])
    ensures exists k :: 0 <= k < |CollectFrom(fields, from)| && CollectFrom(fields, from)[k].index == i
    decreases |fields| - from
  {
    var entries := CollectFrom(fields, from);
    if i == from {
      assert entries[0].index == i;
    } else {
      CollectFromComplete(fields, from + 1, i);
      var rest := CollectFrom(fields, from + 1);
      var k :| 0 <= k < |rest| && rest[k].index == i;
      if Participates(fields[from]) {
        assert entries[k + 1] == rest[k];
      } else {
        assert entries[k] == rest[k];
      }
    }
  }

  /**
   * The fields `readArguments` binds: exactly the participating ones, each
   * once, in declaration order, each carrying the wrapper found there.
   */
  function Collect<V>(fields: seq<Field<V>>): (entries: seq<Entry<V>>)
    ensures forall k :: 0 <= k < |entries| ==>
              && entries[k].index < |fields|
              && Participates(fields[entries[k].index])
              && fields[entries[k].index] == Field(entries[k].tag, Some(entries[k].property))
    ensures forall k, l :: 0 <= k < l < |entries| ==> entries[k].index < entries[l].index
    ensures forall i :: 0 <= i < |fields| && Participates(fields[i]) ==>
              exists k :: 0 <= k < |entries| && entries[k].index == i
  {
    forall i | 0 <= i < |fields| && Participates(fields[i])
      ensures exists k :: 0 <= k < |CollectFrom(fields, 0)| && CollectFrom(fields, 0)[k].index == i
    {
      CollectFromComplete(fields, 0, i);
    }
    CollectFrom(fields, 0)
  }

  /** `properties.drop(where:)`: the matching entries, and the others, both in order. */
  function Partition<V>(keep: Entry<V> -> bool, entries: seq<Entry<V>>): (parts: (seq<Entry<V>>, seq<Entry<V>>))
    ensures forall k :: 0 <= k < |parts.0| ==> keep(parts.0[k]) && parts.0[k] in entries
    ensures forall k :: 0 <= k < |parts.1| ==> !keep(parts.1[k]) && parts.1[k] in entries
    ensures forall e :: e in entries ==> e in parts.0 || e in parts.1
    ensures |parts.0| + |parts.1| == |entries|
  {
    FilterSplitsLength(keep, entries);
    (Filter(keep, entries), Filter(Complement(keep), entries))
  }

  lemma {:induction false} FilterSplitsLength<T>(keep: T -> bool, xs: seq<T>)
    ensures |Filter(keep, xs)| + |Filter(Complement(keep), xs)| == |xs|
  {
    if |xs| > 0 {
      FilterSplitsLength(keep, xs[1..]);
    }
  }

  /** The token list: the process arguments without the program path. */
  function Tokens(commandLine: seq<string>): (args: seq<string>)
    ensures |commandLine| > 0 ==> [commandLine[0]] + args == commandLine
    ensures |commandLine| == 0 ==> args == []
  {
    if |commandLine| == 0 then [] else commandLine[1..]
  }

  /** How one binding pass ends. */
  datatype Binding<V> =
    | Completed(fields: seq<Field<V>>, leftover: seq<string>)
    | Exited(status: int, reason: string, fields: seq<Field<V>>)
    | Crashed(trap: Trap)

  /** A runtime trap: a failed `assert` or an out-of-range subscript. */
  datatype Trap = AssertionFailed(message: string) | IndexOutOfRange

  const PositionalMessage := "only one input property can be set per command"

  /** `Outcome` of a value, rewrapped as an outcome of the wrapper holding it. */
  function Rewrap<T, V>(o: Outcome<T>, wrap: T -> Property<V>): (r: Outcome<Property<V>>)
    ensures o.Bound? <==> r.Bound?
    ensures o.Bound? ==> r.value == wrap(o.value) && r.rest == o.rest
    ensures o.Thrown? ==> r == Thrown(o.error)
    ensures o.Trapped? ==> r.Trapped?
  {
    match o
    case Bound(v, rest) => Bound(wrap(v), rest)
    case Thrown(e) => Thrown(e)
    case Trapped => Trapped
  }

  /** The element type's `init?(_:)`, picked by the type's name. */
  function ParseAs<V>(convert: (string, string) -> Option<V>, typeName: string): (parse: string -> Option<V>)
    ensures forall s :: parse(s) == convert(typeName, s)
  {
    s => convert(typeName, s)
  }

  /** `set(label, with: &arguments)` of whichever wrapper the field holds. */
  function SetProperty<V>(p: Property<V>, tag: string, convert: (string, string) -> Option<V>,
                          args: seq<string>): (r: Outcome<Property<V>>)
    ensures r.Bound? ==> r.value.IsFlag() == p.IsFlag() && r.value.IsOptional() == p.IsOptional()
    ensures p.CommandFlag? ==> r.Bound?
    ensures p.CommandOptions? || p.CommandInputs? ==> r.Bound?
    ensures r.Trapped? ==> p.CommandOption?
  {
    var name := FieldName(tag);
    match p
    case CommandFlag(strict, on) =>
      var (v, rest) := SetFlag(on, name, strict, args);
      Bound(CommandFlag(strict, v), rest)
    case CommandOption(strict, t, value) =>
      Rewrap(SetOption(value, name, strict, ParseAs(convert, t), args), v => CommandOption(strict, t, v))
    case CommandOptions(strict, t, values) =>
      Rewrap(SetOptions(values, name, strict, ParseAs(convert, t), args), vs => CommandOptions(strict, t, vs))
    case CommandInput(t, value) =>
      Rewrap(SetInput(value, ParseAs(convert, t), args), v => CommandInput(t, v))
    case CommandInputs(t, values) =>
      Rewrap(SetInputs(values, ParseAs(convert, t), args), vs => CommandInputs(t, vs))
  }

  /** Every entry names a participating field of `fields`. */
  predicate Targets<V>(entries: seq<Entry<V>>, fields: seq<Field<V>>) {
    forall k :: 0 <= k < |entries| ==> entries[k].index < |fields| && Participates(fields[entries[k].index])
  }

  /**
   * `compile(for:)`: bind the entries in order against the shared list.
   * A bound wrapper is written back to its field and the next binder sees
   * what is left; a thrown error exits with status 2 and its reason, with
   * the fields bound so far and the failing one not written back; a trap
   * ends the process. Fields no entry names are never touched.
   * Each step binds the wrapper the entry carries rather than re-reading
   * the field; the two agree because the collected entries name distinct
   * fields, so no earlier step has written the field a later one reads.
   */
  function CompileAll<V>(fields: seq<Field<V>>, entries: seq<Entry<V>>, args: seq<string>,
                         convert: (string, string) -> Option<V>): (r: Binding<V>)
    requires Targets(entries, fields)
    ensures r.Completed? || r.Exited? ==> |r.fields| == |fields|
    ensures r.Exited? ==> r.status == 2
    ensures r.Crashed? ==> r.trap == IndexOutOfRange
    ensures r.Completed? || r.Exited? ==>
              forall i :: 0 <= i < |fields| ==>
                (Participates(r.fields[i]) <==> Participates(fields[i])) &&
                (!Participates(fields[i]) ==> r.fields[i] == fields[i])
    decreases |entries|
  {
    if |entries| == 0 then Completed(fields, args)
    else
      var e := entries[0];
      match SetProperty(e.property, e.tag, convert, args)
      case Bound(p, rest) =>
        var written := fields[e.index := fields[e.index].(property := Some(p))];
        assert forall k :: 0 <= k < |entries[1..]| ==> entries[1..][k] == entries[k + 1];
        CompileAll(written, entries[1..], rest, convert)
      case Thrown(err) => Exited(2, Reason(err, e.property.ElementType()), fields)
      case Trapped => Crashed(IndexOutOfRange)
  }

  /** Continue a pass with more entries, unless it already ended. */
  function AndThen<V>(b: Binding<V>, entries: seq<Entry<V>>, convert: (string, string) -> Option<V>)
    : (r: Binding<V>)
    requires b.Completed? ==> Targets(entries, b.fields)
    ensures !b.Completed? ==> r == b
    ensures b.Completed? ==> r == CompileAll(b.fields, entries, b.leftover, convert)
  {
    match b
    case Completed(fields, args) => CompileAll(fields, entries, args, convert)
    case _ => b
  }

  predicate IsFlagEntry<V>(e: Entry<V>) { e.property.IsFlag() }
  predicate IsOptionalEntry<V>(e: Entry<V>) { e.property.IsOptional() }

  function Flagged<V>(entries: seq<Entry<V>>): seq<Entry<V>> {
    Partition(IsFlagEntry, entries).0
  }

  function Unflagged<V>(entries: seq<Entry<V>>): seq<Entry<V>> {
    Partition(IsFlagEntry, entries).1
  }

  function OptionalOf<V>(entries: seq<Entry<V>>): seq<Entry<V>> {
    Partition(IsOptionalEntry, Unflagged(entries)).0
  }

  function Positional<V>(entries: seq<Entry<V>>): seq<Entry<V>> {
    Partition(IsOptionalEntry, Unflagged(entries)).1
  }

  /**
   * `readArguments`. With no participating field nothing is bound and no
   * token is consumed. With more than one positional field the assertion
   * fails. Otherwise the flagged fields are bound, then the optional ones
   * left over, then the positional one.
   */
  function ReadArguments<V>(fields: seq<Field<V>>, commandLine: seq<string>,
                            convert: (string, string) -> Option<V>): (r: Binding<V>)
    ensures |Collect(fields)| == 0 ==> r == Completed(fields, Tokens(commandLine))
    ensures |Collect(fields)| > 0 && |Positional(Collect(fields))| > 1 ==>
              r == Crashed(AssertionFailed(PositionalMessage))
    ensures r.Exited? ==> r.status == 2
    ensures r.Completed? || r.Exited? ==> |r.fields| == |fields|
    ensures r.Completed? || r.Exited? ==>
              forall i :: 0 <= i < |fields| && !Participates(fields[i]) ==> r.fields[i] == fields[i]
  {
    var entries := Collect(fields);
    if |entries| == 0 then Completed(fields, Tokens(commandLine))
    else if |Positional(entries)| > 1 then Crashed(AssertionFailed(PositionalMessage))
    else BindGroups(fields, entries, Tokens(commandLine), convert)
  }

  /**
   * The three `compile(for:)` calls of `readArguments`: flagged fields,
   * then optional ones, then positional ones, each group in declaration
   * order, all against the same token list.
   */
  function BindGroups<V>(fields: seq<Field<V>>, entries: seq<Entry<V>>, args: seq<string>,
                         convert: (string, string) -> Option<V>): (r: Binding<V>)
    requires Targets(entries, fields)
    ensures r.Exited? ==> r.status == 2
    ensures r.Completed? || r.Exited? ==> |r.fields| == |fields|
    ensures r.Completed? || r.Exited? ==>
              forall i :: 0 <= i < |fields| && !Participates(fields[i]) ==> r.fields[i] == fields[i]
  {
    var flagged := Flagged(entries);
    var optional := OptionalOf(entries);
    var positional := Positional(entries);
    SubsetTargets(flagged, entries, fields);
    SubsetTargets(Unflagged(entries), entries, fields);
    SubsetTargets(optional, Unflagged(entries), fields);
    SubsetTargets(positional, Unflagged(entries), fields);
    var afterFlagged := CompileAll(fields, flagged, args, convert);
    if !afterFlagged.Completed? then afterFlagged
    else
      RetargetAfter(optional, fields, afterFlagged.fields);
      RetargetAfter(positional, fields, afterFlagged.fields);
      var afterOptional := CompileAll(afterFlagged.fields, optional, afterFlagged.leftover, convert);
      if !afterOptional.Completed? then afterOptional
      else
        RetargetAfter(positional, afterFlagged.fields, afterOptional.fields);
        CompileAll(afterOptional.fields, positional, afterOptional.leftover, convert)
  }

  lemma SubsetTargets<V>(sub: seq<Entry<V>>, entries: seq<Entry<V>>, fields: seq<Field<V>>)
    requires Targets(entries, fields)
    requires forall k :: 0 <= k < |sub| ==> sub[k] in entries
    ensures Targets(sub, fields)
  {
    forall k | 0 <= k < |sub|
      ensures sub[k].index < |fields| && Participates(fields[sub[k].index])
    {
      var j :| 0 <= j < |entries| && entries[j] == sub[k];
    }
  }

  lemma RetargetAfter<V>(entries: seq<Entry<V>>, before: seq<Field<V>>, after: seq<Field<V>>)
    requires Targets(entries, before)
    requires |after| == |before|
    requires forall i :: 0 <= i < |before| ==> (Participates(after[i]) <==> Participates(before[i]))
    ensures Targets(entries, after)
  {
  }
}

=== FILE: command_laws.dfy ===
/**
 * Laws of a binding pass: the sequential composition of binders, where a
 * pass stops, and which kinds of fields can stop it at all.
 */
module CommandLaws {
  import opened Common
  import opened Binders
  import opened Command

  /**
   * Binding `first + second` is binding `first`, then binding `second`
   * against exactly what `first` left: every binder sees the tokens its
   * predecessors did not consume.
   */
  lemma {:induction false} CompileAllAppend<V>(fields: seq<Field<V>>, first: seq<Entry<V>>, second: seq<Entry<V>>,
                                               args: seq<string>, convert: (string, string) -> Option<V>)
    requires Targets(first + second, fields)
    ensures Targets(first, fields) && Targets(second, fields)
    ensures var mid := CompileAll(fields, first, args, convert);
            mid.Completed? ==> Targets(second, mid.fields)
    ensures CompileAll(fields, first + second, args, convert)
            == AndThen(CompileAll(fields, first, args, convert), second, convert)
    decreases |first|
  {
    assert forall k :: 0 <= k < |first| ==> (first + second)[k] == first[k];
    assert forall k :: 0 <= k < |second| ==> (first + second)[|first| + k] == second[k];
    if |first| == 0 {
      assert first + second == second;
    } else {
      var e := first[0];
      assert (first + second)[0] == e;
      assert (first + second)[1..] == first[1..] + second;
      match SetProperty(e.property, e.tag, convert, args)
      case Bound(p, rest) =>
        var written := fields[e.index := fields[e.index].(property := Some(p))];
        assert forall k :: 0 <= k < |first[1..] + second| ==> (first[1..] + second)[k] == (first + second)[k + 1];
        CompileAllAppend(written, first[1..], second, rest, convert);
      case Thrown(err) =>
      case Trapped =>
    }
  }

  /**
   * A pass that exits does so at one binder: all binders before it ran and
   * bound their fields, that binder threw, the exit carries its reason and
   * the fields as the earlier binders left them, and no later binder ran.
   */
  lemma {:induction false} ExitsAtFirstError<V>(fields: seq<Field<V>>, entries: seq<Entry<V>>, args: seq<string>,
                                                convert: (string, string) -> Option<V>)
    returns (k: nat)
    requires Targets(entries, fields)
    requires CompileAll(fields, entries, args, convert).Exited?
    ensures k < |entries| && Targets(entries[..k], fields)
    ensures var before := CompileAll(fields, entries[..k], args, convert);
            && before.Completed?
            && SetProperty(entries[k].property, entries[k].tag, convert, before.leftover).Thrown?
            && CompileAll(fields, entries, args, convert)
               == Exited(2, Reason(SetProperty(entries[k].property, entries[k].tag, convert, before.leftover).error,
                                   entries[k].property.ElementType()),
                         before.fields)
    decreases |entries|
  {
    assert forall j :: 0 <= j < |entries[1..]| ==> entries[1..][j] == entries[j + 1];
    var e := entries[0];
    match SetProperty(e.property, e.tag, convert, args)
    case Bound(p, rest) =>
      var written := fields[e.index := fields[e.index].(property := Some(p))];
      var k' := ExitsAtFirstError(written, entries[1..], rest, convert);
      k := k' + 1;
      assert entries[..k][0] == e;
      assert entries[..k][1..] == entries[1..][..k'];
      assert forall j :: 0 <= j < k ==> entries[..k][j] == entries[j];
    case Thrown(err) =>
      k := 0;
      assert entries[..0] == [];
    case Trapped =>
      assert false;
  }

  /** Binders that cannot fail. */
  predicate Infallible<V>(p: Property<V>) {
    p.CommandFlag? || p.CommandOptions? || p.CommandInputs?
  }

  /**
   * A pass over flags, multi-options and multi-inputs always completes,
   * whatever the tokens: leftover tokens, unknown markers among them, are
   * never reported.
   */
  lemma {:induction false} InfallibleCompletes<V>(fields: seq<Field<V>>, entries: seq<Entry<V>>, args: seq<string>,
                                                  convert: (string, string) -> Option<V>)
    requires Targets(entries, fields)
    requires forall k :: 0 <= k < |entries| ==> Infallible(entries[k].property)
    ensures CompileAll(fields, entries, args, convert).Completed?
    decreases |entries|
  {
    if |entries| > 0 {
      var e := entries[0];
      assert Infallible(e.property);
      var p := SetProperty(e.property, e.tag, convert, args).value;
      var rest := SetProperty(e.property, e.tag, convert, args).rest;
      var written := fields[e.index := fields[e.index].(property := Some(p))];
      assert forall j :: 0 <= j < |entries[1..]| ==> entries[1..][j] == entries[j + 1];
      InfallibleCompletes(written, entries[1..], rest, convert);
    }
  }

  /**
   * The group of optional fields left after the flagged ones are taken out
   * is always empty: every optional wrapper is a flagged one.
   */
  lemma OptionalGroupIsEmpty<V>(entries: seq<Entry<V>>)
    ensures OptionalOf(entries) == []
  {
    var unflagged := Unflagged(entries);
    assert forall k :: 0 <= k < |unflagged| ==> !IsOptionalEntry(unflagged[k]);
    FilterNothing(IsOptionalEntry, unflagged);
  }

  /**
   * What the three groups amount to: the flagged fields in declaration
   * order, then the positional ones.
   */
  lemma GroupsAreFlaggedThenPositional<V>(fields: seq<Field<V>>, entries: seq<Entry<V>>, args: seq<string>,
                                          convert: (string, string) -> Option<V>)
    requires Targets(entries, fields)
    ensures Targets(Flagged(entries) + Positional(entries), fields)
    ensures BindGroups(fields, entries, args, convert)
            == CompileAll(fields, Flagged(entries) + Positional(entries), args, convert)
  {
    OptionalGroupIsEmpty(entries);
    var flagged := Flagged(entries);
    var positional := Positional(entries);
    SubsetTargets(flagged, entries, fields);
    SubsetTargets(Unflagged(entries), entries, fields);
    SubsetTargets(positional, Unflagged(entries), fields);
    assert Targets(flagged + positional, fields);
    CompileAllAppend(fields, flagged, positional, args, convert);
  }

  /**
   * `readArguments` on a command with wrapped fields that passes the
   * assertion is one pass: every flagged field in declaration order, then
   * the positional one, if any, on the tokens the flagged ones left.
   */
  lemma ReadArgumentsIsOnePass<V>(fields: seq<Field<V>>, commandLine: seq<string>,
                                  convert: (string, string) -> Option<V>)
    requires |Collect(fields)| > 0 && |Positional(Collect(fields))| <= 1
    ensures Targets(Flagged(Collect(fields)) + Positional(Collect(fields)), fields)
    ensures ReadArguments(fields, commandLine, convert)
            == CompileAll(fields, Flagged(Collect(fields)) + Positional(Collect(fields)), Tokens(commandLine), convert)
  {
    GroupsAreFlaggedThenPositional(fields, Collect(fields), Tokens(commandLine), convert);
  }

  /** The partition of a one-entry command. */
  lemma GroupsOfOne<V>(e: Entry<V>)
    ensures Flagged([e]) == if e.property.IsFlag() then [e] else []
    ensures Positional([e]) == if e.property.IsFlag() then [] else [e]
  {
    FilterSingle(IsFlagEntry, e);
    FilterSingle(Complement(IsFlagEntry), e);
    FilterSingle(Complement(IsOptionalEntry), e);
    var none: seq<Entry<V>> := [];
    assert Filter(Complement(IsOptionalEntry), none) == [];
  }

  /**
   * A command whose one wrapped field is an `@Input`: with no tokens the
   * default stays; otherwise the last token is converted, and either
   * becomes the value, with every earlier token left over, or the pass
   * exits with that token's conversion error.
   */
  lemma SingleInputBinding<V>(tag: string, typeName: string, value: V, commandLine: seq<string>,
                              convert: (string, string) -> Option<V>)
    requires |tag| > 0 && tag[0] == '_'
    ensures var fields := [Field(tag, Some(CommandInput(typeName, value)))];
            var args := Tokens(commandLine);
            var r := ReadArguments(fields, commandLine, convert);
            if |args| == 0 then r == Completed(fields, [])
            else match convert(typeName, args[|args| - 1])
              case Some(v) => r == Completed([Field(tag, Some(CommandInput(typeName, v)))], args[..|args| - 1])
              case None => r == Exited(2, Reason(InputConversion(args[|args| - 1]), typeName), fields)
  {
    var fields := [Field(tag, Some(CommandInput(typeName, value)))];
    var e := Entry(tag, 0, CommandInput(typeName, value));
    assert CollectFrom(fields, 1) == [];
    assert Collect(fields) == [e];
    GroupsOfOne(e);
    var args := Tokens(commandLine);
    GroupsAreFlaggedThenPositional(fields, [e], args, convert);
    assert [] + [e] == [e];
    var out := SetInput(value, s => convert(typeName, s), args);
    if |args| > 0 && out.Bound? {
      assert out.rest == args[..|args| - 1] by {
        assert out.rest + [args[|args| - 1]] == args;
        assert args[..|args| - 1] + [args[|args| - 1]] == args;
      }
    }
  }

  /** One step of a pass whose first binder binds. */
  lemma CompileFirst<V>(fields: seq<Field<V>>, entries: seq<Entry<V>>, args: seq<string>,
                        convert: (string, string) -> Option<V>, p: Property<V>, rest: seq<string>)
    requires |entries| > 0 && Targets(entries, fields)
    requires SetProperty(entries[0].property, entries[0].tag, convert, args) == Bound(p, rest)
    ensures var written := fields[entries[0].index := fields[entries[0].index].(property := Some(p))];
            && Targets(entries[1..], written)
            && CompileAll(fields, entries, args, convert) == CompileAll(written, entries[1..], rest, convert)
  {
    assert forall k :: 0 <= k < |entries[1..]| ==> entries[1..][k] == entries[k + 1];
  }
}

=== FILE: common.dfy ===
/**
 * Small shared vocabulary: an optional value, string predicates over
 * `seq<char>` (prefix, substring, ASCII lower-casing), and the Swift
 * collection operations the command sources lean on (`compactMap`,
 * `filter`, `remove(at:)`).
 */
module Common {

  /** Swift's `Optional`: `nil` or a wrapped value. */
  datatype Option<+T> = None | Some(value: T)

  /** `s.hasPrefix(p)` */
  predicate StartsWith(s: string, p: string) {
    |p| <= |s| && s[..|p|] == p
  }

  /** `s.contains(p)` for a non-empty or empty string `p` */
  predicate Contains(s: string, p: string) {
    exists i :: 0 <= i <= |s| && StartsWith(s[i..], p)
  }

  lemma StartsWithContains(s: string, p: string)
    requires StartsWith(s, p)
    ensures Contains(s, p)
  {
    assert s[0..] == s;
  }

  predicate IsAsciiUpper(c: char) { 'A' <= c <= 'Z' }
  predicate IsAsciiLower(c: char) { 'a' <= c <= 'z' }
  predicate IsAsciiDigit(c: char) { '0' <= c <= '9' }

  /** ASCII lower-casing of a single character. */
  function LowerChar(c: char): (r: char)
    ensures IsAsciiUpper(c) ==> IsAsciiLower(r) && r as int == c as int + 32
    ensures !IsAsciiUpper(c) ==> r == c
  {
    if IsAsciiUpper(c) then (c as int + 32) as char else c
  }

  /** `s.lowercased()`, restricted to the ASCII letters. */
  function Lower(s: string): (r: string)
    ensures |r| == |s|
    ensures forall i :: 0 <= i < |s| ==> r[i] == LowerChar(s[i])
  {
    seq(|s|, i requires 0 <= i < |s| => LowerChar(s[i]))
  }

  /** Lower-casing is idempotent. */
  lemma LowerIdempotent(s: string)
    ensures Lower(Lower(s)) == Lower(s)
  {
  }

  /** A lower-cased string never holds an upper-case ASCII letter. */
  lemma LowerHasNoUpper(s: string)
    ensures forall i :: 0 <= i < |s| ==> !IsAsciiUpper(Lower(s)[i])
  {
  }

  /**
   * `xs.compactMap(parse)`: the values of the elements `parse` accepts,
   * in order; elements it rejects are dropped without trace.
   */
  function CompactMap<T, U>(parse: T -> Option<U>, xs: seq<T>): (r: seq<U>)
    ensures |r| <= |xs|
    ensures (forall k :: 0 <= k < |xs| ==> parse(xs[k]).Some?) ==>
              |r| == |xs| && forall k :: 0 <= k < |xs| ==> r[k] == parse(xs[k]).value
    ensures (forall k :: 0 <= k < |xs| ==> parse(xs[k]).None?) ==> r == []
    ensures forall k :: 0 <= k < |r| ==> exists j :: 0 <= j < |xs| && parse(xs[j]) == Some(r[k])
  {
    if |xs| == 0 then []
    else
      var tail := CompactMap(parse, xs[1..]);
      assert forall k :: 1 <= k < |xs| ==> xs[k] == xs[1..][k - 1];
      match parse(xs[0])
      case Some(v) =>
        assert forall k :: 1 <= k < |[v] + tail| ==> ([v] + tail)[k] == tail[k - 1];
        [v] + tail
      case None => tail
  }

  /** `compactMap` distributes over concatenation. */
  lemma {:induction false} CompactMapAppend<T, U>(parse: T -> Option<U>, xs: seq<T>, ys: seq<T>)
    ensures CompactMap(parse, xs + ys) == CompactMap(parse, xs) + CompactMap(parse, ys)
  {
    if |xs| == 0 {
      assert xs + ys == ys;
    } else {
      assert (xs + ys)[1..] == xs[1..] + ys;
      CompactMapAppend(parse, xs[1..], ys);
    }
  }

  /** `xs.filter(keep)` */
  function Filter<T>(keep: T -> bool, xs: seq<T>): (r: seq<T>)
    ensures |r| <= |xs|
    ensures forall k :: 0 <= k < |r| ==> keep(r[k]) && r[k] in xs
    ensures forall x :: x in xs && keep(x) ==> x in r
  {
    if |xs| == 0 then []
    else if keep(xs[0]) then [xs[0]] + Filter(keep, xs[1..])
    else Filter(keep, xs[1..])
  }

  /** A conversion that gives every element back unchanged keeps the whole list. */
  lemma CompactMapIdentity<T>(parse: T -> Option<T>, xs: seq<T>)
    requires forall k :: 0 <= k < |xs| ==> parse(xs[k]) == Some(xs[k])
    ensures CompactMap(parse, xs) == xs
  {
  }

  /** Filtering one element keeps it exactly when it satisfies the predicate. */
  lemma FilterSingle<T>(keep: T -> bool, x: T)
    ensures Filter(keep, [x]) == if keep(x) then [x] else []
  {
    assert [x][1..] == [];
  }

  /** Filtering with a predicate no element satisfies leaves nothing. */
  lemma {:induction false} FilterNothing<T>(keep: T -> bool, xs: seq<T>)
    requires forall k :: 0 <= k < |xs| ==> !keep(xs[k])
    ensures Filter(keep, xs) == []
  {
    if |xs| > 0 {
      FilterNothing(keep, xs[1..]);
    }
  }

  /** The predicate that holds exactly where `keep` does not. */
  function Complement<T>(keep: T -> bool): T -> bool {
    x => !keep(x)
  }

  /** Elements are kept in their original relative order. */
  lemma {:induction false} FilterAppend<T>(keep: T -> bool, xs: seq<T>, ys: seq<T>)
    ensures Filter(keep, xs + ys) == Filter(keep, xs) + Filter(keep, ys)
  {
    if |xs| == 0 {
      assert xs + ys == ys;
    } else {
      assert (xs + ys)[1..] == xs[1..] + ys;
      FilterAppend(keep, xs[1..], ys);
    }
  }
}

=== FILE: conversion.dfy ===
/**
 * String conversions (`LosslessStringConvertible`) the wrappers rely on:
 * the conformance the library adds to `Optional`, and the two
 * `RawRepresentable` conformances. A conversion is a function from a token
 * to an optional value; `None` is a failed conversion.
 */
module Conversion {
  import opened Common

  /**
   * `Optional.init?(_:)`: the wrapped type's conversion, with its failure
   * turned into a `nil` value. The outer `Option` is the success of the
   * conversion, the inner one the field's optional value.
   */
  function ParseOptional<T>(parse: string -> Option<T>, token: string): (r: Option<Option<T>>)
    ensures r.Some?
    ensures r.value.None? <==> parse(token).None?
    ensures r.value.Some? ==> parse(token) == Some(r.value.value)
  {
    Some(parse(token))
  }

  /** `Optional.description`: "nil" for an absent value. */
  function DescribeOptional<T>(describe: T -> string, v: Option<T>): string {
    match v
    case None => "nil"
    case Some(x) => describe(x)
  }

  /** `String.init?(_:)`: every token is a string. */
  function ParseString(token: string): Option<string> {
    Some(token)
  }

  /**
   * `nil` does not survive a round trip through `String?`: its description
   * "nil" converts back to the string "nil", not to `nil`.
   */
  lemma OptionalStringNilDoesNotRoundTrip()
    ensures ParseOptional(ParseString, DescribeOptional((s: string) => s, None)) == Some(Some("nil"))
  {
  }

  /** A present string does survive it. */
  lemma OptionalStringRoundTrip(s: string)
    ensures ParseOptional(ParseString, DescribeOptional((t: string) => t, Some(s))) == Some(Some(s))
  {
  }

  /**
   * `init(rawValue:)` of a string-backed enum: the case, in declaration
   * order, whose raw value is the given string.
   */
  function FromRawValue<T>(cases: seq<T>, rawValue: T -> string, s: string): (r: Option<T>)
    ensures r.Some? ==> r.value in cases && rawValue(r.value) == s
    ensures r.None? <==> forall c :: c in cases ==> rawValue(c) != s
  {
    if |cases| == 0 then None
    else if rawValue(cases[0]) == s then Some(cases[0])
    else FromRawValue(cases[1..], rawValue, s)
  }

  /**
   * `RawRepresentable.init?(_:)` when `RawValue == String`: the description
   * is the raw value itself.
   */
  function ParseRawString<T>(cases: seq<T>, rawValue: T -> string, description: string): Option<T> {
    FromRawValue(cases, rawValue, description)
  }

  /**
   * `RawRepresentable.init?(_:)` for any other convertible raw value: the
   * raw value's own conversion first, then `init(rawValue:)`.
   */
  function ParseViaRaw<R, T>(parseRaw: string -> Option<R>, fromRaw: R -> Option<T>, description: string)
    : (r: Option<T>)
    ensures parseRaw(description).None? ==> r.None?
    ensures parseRaw(description).Some? ==> r == fromRaw(parseRaw(description).value)
  {
    match parseRaw(description)
    case None => None
    case Some(raw) => fromRaw(raw)
  }

  /**
   * For a raw type whose own conversion reads back its description, and a
   * case that `init(rawValue:)` recovers from its raw value, converting the
   * case's description gives the case back: `T(t.description) == t`.
   */
  lemma ViaRawRoundTrip<R, T>(parseRaw: string -> Option<R>, describeRaw: R -> string, fromRaw: R -> Option<T>,
                              rawValue: T -> R, t: T)
    requires forall x :: parseRaw(describeRaw(x)) == Some(x)
    requires fromRaw(rawValue(t)) == Some(t)
    ensures ParseViaRaw(parseRaw, fromRaw, describeRaw(rawValue(t))) == Some(t)
  {
    RawReadsBack(parseRaw, describeRaw, rawValue(t));
  }

  /** The raw type's own round trip, at one raw value. */
  lemma RawReadsBack<R>(parseRaw: string -> Option<R>, describeRaw: R -> string, raw: R)
    requires forall x :: parseRaw(describeRaw(x)) == Some(x)
    ensures parseRaw(describeRaw(raw)) == Some(raw)
  {
  }

  /**
   * The round trip needs the raw type's own: when the raw type cannot read
   * back the description of the case's raw value, the case is lost.
   */
  lemma ViaRawNeedsRawRoundTrip<R, T>(parseRaw: string -> Option<R>, describeRaw: R -> string,
                                      fromRaw: R -> Option<T>, rawValue: T -> R, t: T)
    requires parseRaw(describeRaw(rawValue(t))).None?
    ensures ParseViaRaw(parseRaw, fromRaw, describeRaw(rawValue(t))) == None
  {
  }

  /** Raw values that tell the cases apart. */
  ghost predicate DistinctRawValues<T>(cases: seq<T>, rawValue: T -> string) {
    forall i, j :: 0 <= i < |cases| && 0 <= j < |cases| && rawValue(cases[i]) == rawValue(cases[j]) ==> i == j
  }

  /**
   * For string-backed cases with distinct raw values, converting a case's
   * description gives the case back: `T(t.description) == t`.
   */
  lemma RawStringRoundTrip<T>(cases: seq<T>, rawValue: T -> string, k: nat)
    requires k < |cases|
    requires DistinctRawValues(cases, rawValue)
    ensures ParseRawString(cases, rawValue, rawValue(cases[k])) == Some(cases[k])
  {
  }
}

=== FILE: examples.dfy ===
/**
 * The example commands, bound end to end: `Run` (a string-backed enum
 * input with a default), `Greeting` (an optional string input), `Greetings`
 * (two flags, one strict, and a multi-input), and the flag-toggling
 * command of the package's tests.
 */
module RunExample {
  import opened Common
  import opened Binders
  import opened Command
  import CommandLaws
  import Conversion

  datatype RunMode = Start | Pause | Stop

  const Modes: seq<RunMode> := [Start, Pause, Stop]

  /** `description`, which is `rawValue`: the case's name. */
  function Description(m: RunMode): string {
    match m
    case Start => "start"
    case Pause => "pause"
    case Stop => "stop"
  }

  /** `RunMode.init?(_:)`: the three exact names, and nothing else. */
  function ParseRunMode(s: string): (r: Option<RunMode>)
    ensures r.Some? <==> s == "start" || s == "pause" || s == "stop"
  {
    match s
    case "start" => Some(Start)
    case "pause" => Some(Pause)
    case "stop" => Some(Stop)
    case _ => None
  }

  /** Every mode survives a round trip through its description: `RunMode(m.description) == m`. */
  lemma DescriptionRoundTrip(m: RunMode)
    ensures ParseRunMode(Description(m)) == Some(m)
  {
  }

  /** The only string that converts to a mode is that mode's description. */
  lemma ParseIsInverse(s: string, m: RunMode)
    ensures ParseRunMode(s) == Some(m) <==> s == Description(m)
  {
  }

  /** Matching is exact: a different case does not convert. */
  lemma CaseMatters()
    ensures ParseRunMode("Start") == None && ParseRunMode("STOP") == None && ParseRunMode("") == None
  {
  }

  /**
   * The hand-written conversion agrees with the library's conversion for
   * string-backed enums, `init(rawValue:)`.
   */
  lemma AgreesWithRawValue(s: string)
    ensures ParseRunMode(s) == Conversion.ParseRawString(Modes, Description, s)
  {
  }

  function Convert(typeName: string, token: string): Option<RunMode> {
    ParseRunMode(token)
  }

  /** `Run`: `@Input var mode: RunMode = .start`. */
  function RunFields(mode: RunMode): seq<Field<RunMode>> {
    [Field("_mode", Some(CommandInput("RunMode", mode)))]
  }

  /** The line `main` prints for a mode. */
  function Announcement(m: RunMode): string {
    match m
    case Start => "started"
    case Pause => "paused"
    case Stop => "stopped …"
  }

  /**
   * The line `main` prints tells the modes apart, and it begins with the
   * name of the mode that was bound.
   */
  lemma AnnouncementNamesMode(m: RunMode, other: RunMode)
    ensures StartsWith(Announcement(m), Description(m))
    ensures Announcement(m) == Announcement(other) ==> m == other
  {
  }

  /**
   * Binding `Run`: with no arguments the mode stays `.start`; otherwise the
   * last argument must name a mode, and anything else exits with status 2
   * instead of falling back to the default.
   */
  lemma RunBinding(commandLine: seq<string>)
    ensures var args := Tokens(commandLine);
            var r := ReadArguments(RunFields(Start), commandLine, Convert);
            if |args| == 0 then r == Completed(RunFields(Start), [])
            else match ParseRunMode(args[|args| - 1])
              case Some(m) => r == Completed(RunFields(m), args[..|args| - 1])
              case None =>
                r == Exited(2, "couldn't convert input '" + args[|args| - 1] + "' to type RunMode", RunFields(Start))
  {
    CommandLaws.SingleInputBinding("_mode", "RunMode", Start, commandLine, Convert);
  }


  /** `Run` with a leading unknown marker: only the last argument matters. */
  lemma RunIgnoresEarlierTokens()
    ensures ReadArguments(RunFields(Start), ["run", "-x", "stop"], Convert)
            == Completed(RunFields(Stop), ["-x"])
  {
    RunBinding(["run", "-x", "stop"]);
    assert Tokens(["run", "-x", "stop"]) == ["-x", "stop"];
  }
}

module GreetingExample {
  import opened Common
  import opened Binders
  import opened Command
  import CommandLaws
  import Conversion

  /** `String?` conversion: never fails. */
  function Convert(typeName: string, token: string): Option<Option<string>> {
    Conversion.ParseOptional(Conversion.ParseString, token)
  }

  /** `Greeting`: `@Input var person: String?`. */
  function GreetingFields(person: Option<string>): seq<Field<Option<string>>> {
    [Field("_person", Some(CommandInput("Optional<String>", person)))]
  }

  /** The line `main` prints. */
  function Message(person: Option<string>): string {
    "Hello" + (match person case None => "" case Some(p) => ", " + p) + "!"
  }

  /**
   * Binding `Greeting` always completes: the last argument, whatever it is,
   * becomes `person`, and with no arguments `person` stays nil.
   */
  lemma GreetingBinding(commandLine: seq<string>)
    ensures var args := Tokens(commandLine);
            var r := ReadArguments(GreetingFields(None), commandLine, Convert);
            if |args| == 0 then r == Completed(GreetingFields(None), [])
            else r == Completed(GreetingFields(Some(args[|args| - 1])), args[..|args| - 1])
  {
    CommandLaws.SingleInputBinding("_person", "Optional<String>", None, commandLine, Convert);
  }


  /** The message for a command line: "Hello!" without arguments, else greeting the last one. */
  lemma GreetingMessage(commandLine: seq<string>)
    ensures var args := Tokens(commandLine);
            var r := ReadArguments(GreetingFields(None), commandLine, Convert);
            && r.Completed?
            && r.fields[0].property.Some?
            && r.fields[0].property.value.CommandInput?
            && Message(r.fields[0].property.value.value)
               == if |args| == 0 then "Hello!" else "Hello, " + args[|args| - 1] + "!"
  {
    var args := Tokens(commandLine);
    var r := ReadArguments(GreetingFields(None), commandLine, Convert);
    GreetingBinding(commandLine);
    if |args| == 0 {
      assert r == Completed(GreetingFields(None), []);
      assert Message(None) == "Hello!";
    } else {
      var last := args[|args| - 1];
      assert r == Completed(GreetingFields(Some(last)), args[..|args| - 1]);
      assert Message(Some(last)) == "Hello, " + last + "!";
    }
  }

  /** The package's test: "Hello World!" binds verbatim. */
  lemma HelloWorldBindsVerbatim()
    ensures ReadArguments(GreetingFields(None), ["test", "Hello World!"], Convert)
            == Completed(GreetingFields(Some("Hello World!")), [])
  {
    GreetingBinding(["test", "Hello World!"]);
    assert Tokens(["test", "Hello World!"]) == ["Hello World!"];
  }

  /** A dash-prefixed last token is accepted like any other. */
  lemma MarkerBecomesPerson()
    ensures ReadArguments(GreetingFields(None), ["greeting", "Ann", "-x"], Convert)
            == Completed(GreetingFields(Some("-x")), ["Ann"])
  {
    GreetingBinding(["greeting", "Ann", "-x"]);
    assert Tokens(["greeting", "Ann", "-x"]) == ["Ann", "-x"];
  }
}

module GreetingsExample {
  import opened Common
  import opened Binders
  import opened Command
  import CommandLaws

  function Convert(typeName: string, token: string): Option<string> {
    Some(token)
  }

  /**
   * `Greetings`: `@Flag(true) var debug`, `@Flag var informal`,
   * `@Inputs var people: [String]`. `@Flag(true)` passes `true` as the
   * unlabeled `strict` argument; both flags default to false.
   */
  function GreetingsFields(debug: bool, informal: bool, people: seq<string>): seq<Field<string>> {
    [ Field("_debug", Some(CommandFlag(true, debug))),
      Field("_informal", Some(CommandFlag(false, informal))),
      Field("_people", Some(CommandInputs("String", people))) ]
  }

  /** What the multi-input takes from the tokens the flags left. */
  function PeopleOf(rest: seq<string>): seq<string> {
    if |rest| == 0 then [] else rest[TrailingStart(rest)..]
  }

  function LeftoverOf(rest: seq<string>): seq<string> {
    if |rest| == 0 then rest else rest[..TrailingStart(rest)]
  }

  const Debug0: Entry<string> := Entry("_debug", 0, CommandFlag(true, false))
  const Informal0: Entry<string> := Entry("_informal", 1, CommandFlag(false, false))
  const People0: Entry<string> := Entry("_people", 2, CommandInputs("String", []))

  lemma GreetingsEntries()
    ensures Collect(GreetingsFields(false, false, [])) == [Debug0, Informal0, People0]
  {
    var fields := GreetingsFields(false, false, []);
    assert CollectFrom(fields, 3) == [];
    assert CollectFrom(fields, 2) == [People0];
    assert CollectFrom(fields, 1) == [Informal0, People0];
  }

  lemma GreetingsGroups()
    ensures Flagged([Debug0, Informal0, People0]) == [Debug0, Informal0]
    ensures Positional([Debug0, Informal0, People0]) == [People0]
  {
    FlaggedGroup(IsFlagEntry);
    FlaggedGroup(Complement(IsFlagEntry));
    FilterSingle(Complement(IsOptionalEntry), People0);
  }

  lemma FlaggedGroup(keep: Entry<string> -> bool)
    ensures Filter(keep, [Debug0, Informal0, People0])
            == (if keep(Debug0) then [Debug0] else []) + (if keep(Informal0) then [Informal0] else [])
               + (if keep(People0) then [People0] else [])
  {
    assert [Debug0, Informal0, People0] == [Debug0] + [Informal0] + [People0];
    FilterAppend(keep, [Debug0] + [Informal0], [People0]);
    FilterAppend(keep, [Debug0], [Informal0]);
    FilterSingle(keep, Debug0);
    FilterSingle(keep, Informal0);
    FilterSingle(keep, People0);
  }

  /**
   * Binding `Greetings`: `debug` binds first, `informal` against what
   * `debug` left, and `people` becomes the tokens after the last marker of
   * what both flags left. It always completes.
   */
  lemma GreetingsBinding(commandLine: seq<string>)
    ensures var args := Tokens(commandLine);
            var (debug, afterDebug) := SetFlag(false, "debug", true, args);
            var (informal, afterFlags) := SetFlag(false, "informal", false, afterDebug);
            ReadArguments(GreetingsFields(false, false, []), commandLine, Convert)
            == Completed(GreetingsFields(debug, informal, PeopleOf(afterFlags)), LeftoverOf(afterFlags))
  {
    var args := Tokens(commandLine);
    var (debug, afterDebug) := SetFlag(false, "debug", true, args);
    var (informal, afterFlags) := SetFlag(false, "informal", false, afterDebug);
    GreetingsReadsAll(commandLine);
    GreetingsFlagSteps(args, debug, afterDebug, informal, afterFlags);
    GreetingsPeopleStep(debug, informal, afterFlags);
  }

  /** `GreetingsBinding`, with the two flags' outcomes named. */
  lemma GreetingsBindingOf(commandLine: seq<string>, debug: bool, afterDebug: seq<string>,
                           informal: bool, afterFlags: seq<string>)
    requires SetFlag(false, "debug", true, Tokens(commandLine)) == (debug, afterDebug)
    requires SetFlag(false, "informal", false, afterDebug) == (informal, afterFlags)
    ensures ReadArguments(GreetingsFields(false, false, []), commandLine, Convert)
            == Completed(GreetingsFields(debug, informal, PeopleOf(afterFlags)), LeftoverOf(afterFlags))
  {
    GreetingsBinding(commandLine);
  }

  lemma GreetingsReadsAll(commandLine: seq<string>)
    ensures Targets([Debug0, Informal0, People0], GreetingsFields(false, false, []))
    ensures ReadArguments(GreetingsFields(false, false, []), commandLine, Convert)
            == CompileAll(GreetingsFields(false, false, []), [Debug0, Informal0, People0], Tokens(commandLine), Convert)
  {
    var fields := GreetingsFields(false, false, []);
    var all := [Debug0, Informal0, People0];
    GreetingsEntries();
    GreetingsGroups();
    CommandLaws.GroupsAreFlaggedThenPositional(fields, all, Tokens(commandLine), Convert);
    assert [Debug0, Informal0] + [People0] == all;
  }

  lemma GreetingsTargets(debug: bool, informal: bool, people: seq<string>)
    ensures Targets([Debug0, Informal0, People0], GreetingsFields(debug, informal, people))
    ensures Targets([Informal0, People0], GreetingsFields(debug, informal, people))
    ensures Targets([People0], GreetingsFields(debug, informal, people))
  {
    var fields := GreetingsFields(debug, informal, people);
    assert Participates(fields[0]) && Participates(fields[1]) && Participates(fields[2]);
  }

  lemma GreetingsFlagSteps(args: seq<string>, debug: bool, afterDebug: seq<string>,
                           informal: bool, afterFlags: seq<string>)
    requires SetFlag(false, "debug", true, args) == (debug, afterDebug)
    requires SetFlag(false, "informal", false, afterDebug) == (informal, afterFlags)
    ensures Targets([Debug0, Informal0, People0], GreetingsFields(false, false, []))
    ensures Targets([People0], GreetingsFields(debug, informal, []))
    ensures CompileAll(GreetingsFields(false, false, []), [Debug0, Informal0, People0], args, Convert)
            == CompileAll(GreetingsFields(debug, informal, []), [People0], afterFlags, Convert)
  {
    GreetingsTargets(debug, informal, []);
    DebugStep(args, debug, afterDebug);
    InformalStep(debug, afterDebug, informal, afterFlags);
  }

  lemma DebugStep(args: seq<string>, debug: bool, afterDebug: seq<string>)
    requires SetFlag(false, "debug", true, args) == (debug, afterDebug)
    ensures Targets([Debug0, Informal0, People0], GreetingsFields(false, false, []))
    ensures Targets([Informal0, People0], GreetingsFields(debug, false, []))
    ensures CompileAll(GreetingsFields(false, false, []), [Debug0, Informal0, People0], args, Convert)
            == CompileAll(GreetingsFields(debug, false, []), [Informal0, People0], afterDebug, Convert)
  {
    var all := [Debug0, Informal0, People0];
    GreetingsTargets(false, false, []);
    GreetingsTargets(debug, false, []);
    DebugBinds(args, debug, afterDebug);
    WriteDebug(debug);
    assert all[1..] == [Informal0, People0];
    CommandLaws.CompileFirst(GreetingsFields(false, false, []), all, args, Convert, CommandFlag(true, debug), afterDebug);
  }

  lemma DebugBinds(args: seq<string>, debug: bool, afterDebug: seq<string>)
    requires SetFlag(false, "debug", true, args) == (debug, afterDebug)
    ensures SetProperty(Debug0.property, Debug0.tag, Convert, args) == Bound(CommandFlag(true, debug), afterDebug)
  {
    assert FieldName("_debug") == "debug";
  }

  lemma WriteDebug(debug: bool)
    ensures GreetingsFields(false, false, [])[0 := Field("_debug", Some(CommandFlag(true, debug)))]
            == GreetingsFields(debug, false, [])
  {
  }

  lemma InformalStep(debug: bool, afterDebug: seq<string>, informal: bool, afterFlags: seq<string>)
    requires SetFlag(false, "informal", false, afterDebug) == (informal, afterFlags)
    ensures Targets([Informal0, People0], GreetingsFields(debug, false, []))
    ensures CompileAll(GreetingsFields(debug, false, []), [Informal0, People0], afterDebug, Convert)
            == CompileAll(GreetingsFields(debug, informal, []), [People0], afterFlags, Convert)
  {
    var fields1 := GreetingsFields(debug, false, []);
    GreetingsTargets(debug, false, []);
    assert FieldName("_informal") == "informal";
    assert SetProperty(Informal0.property, Informal0.tag, Convert, afterDebug) == Bound(CommandFlag(false, informal), afterFlags);
    CommandLaws.CompileFirst(fields1, [Informal0, People0], afterDebug, Convert, CommandFlag(false, informal), afterFlags);
    assert fields1[1 := Field("_informal", Some(CommandFlag(false, informal)))] == GreetingsFields(debug, informal, []);
    assert [Informal0, People0][1..] == [People0];
  }

  lemma GreetingsPeopleStep(debug: bool, informal: bool, rest: seq<string>)
    ensures Targets([People0], GreetingsFields(debug, informal, []))
    ensures CompileAll(GreetingsFields(debug, informal, []), [People0], rest, Convert)
            == Completed(GreetingsFields(debug, informal, PeopleOf(rest)), LeftoverOf(rest))
  {
    var fields := GreetingsFields(debug, informal, []);
    var bound := CommandInputs("String", PeopleOf(rest));
    GreetingsTargets(debug, informal, []);
    PeopleBinds(rest);
    assert fields[2 := fields[2].(property := Some(bound))] == GreetingsFields(debug, informal, PeopleOf(rest));
    assert [People0][1..] == [];
    CommandLaws.CompileFirst(fields, [People0], rest, Convert, bound, LeftoverOf(rest));
  }

  lemma PeopleBinds(rest: seq<string>)
    ensures SetProperty(People0.property, People0.tag, Convert, rest)
            == Bound(CommandInputs("String", PeopleOf(rest)), LeftoverOf(rest))
  {
    var parse := ParseAs(Convert, "String");
    var out := SetInputs([], parse, rest);
    if |rest| > 0 {
      var tail := rest[TrailingStart(rest)..];
      CompactMapIdentity(parse, tail);
    }
    assert out == Bound(PeopleOf(rest), LeftoverOf(rest));
  }

  /** `debug` is strict: only the full name turns it on, never "-d". */
  lemma DebugIgnoresShortForm()
    ensures ReadArguments(GreetingsFields(false, false, []), ["greetings", "-d"], Convert)
            == Completed(GreetingsFields(false, false, []), ["-d"])
  {
    assert Tokens(["greetings", "-d"]) == ["-d"];
    DashD();
    assert SetFlag(false, "debug", true, ["-d"]) == (false, ["-d"]);
    assert SetFlag(false, "informal", false, ["-d"]) == (false, ["-d"]);
    assert PeopleOf(["-d"]) == [] && LeftoverOf(["-d"]) == ["-d"] by {
      assert TrailingStart(["-d"]) == 1;
    }
    GreetingsBindingOf(["greetings", "-d"], false, ["-d"], false, ["-d"]);
  }

  lemma DashD()
    ensures !FlagMatches("-d", "debug", true) && !FlagMatches("-d", "informal", false)
  {
    assert OptionText("-d") == "d" by { assert "-d"[1..] == "d"; }
  }

  /** `-i Ann Bob`: informal, greeting Ann and Bob. */
  lemma InformalPair()
    ensures ReadArguments(GreetingsFields(false, false, []), ["greetings", "-i", "Ann", "Bob"], Convert)
            == Completed(GreetingsFields(false, true, ["Ann", "Bob"]), [])
  {
    assert Tokens(["greetings", "-i", "Ann", "Bob"]) == ["-i", "Ann", "Bob"];
    InformalPairFlags();
    assert PeopleOf(["Ann", "Bob"]) == ["Ann", "Bob"] && LeftoverOf(["Ann", "Bob"]) == [] by {
      assert TrailingStart(["Ann", "Bob"]) == 0 by {
        assert ["Ann", "Bob"][..1] == ["Ann"];
        assert ["Ann"][..0] == [];
      }
    }
    GreetingsBindingOf(["greetings", "-i", "Ann", "Bob"], false, ["-i", "Ann", "Bob"], true, ["Ann", "Bob"]);
  }

  lemma InformalPairFlags()
    ensures SetFlag(false, "debug", true, ["-i", "Ann", "Bob"]) == (false, ["-i", "Ann", "Bob"])
    ensures SetFlag(false, "informal", false, ["-i", "Ann", "Bob"]) == (true, ["Ann", "Bob"])
  {
    var args := ["-i", "Ann", "Bob"];
    DashI();
    assert !FlagMatches("Ann", "debug", true) && !FlagMatches("Bob", "debug", true);
    assert args[..0] + args[1..] == ["Ann", "Bob"];
  }

  lemma DashI()
    ensures !FlagMatches("-i", "debug", true) && FlagMatches("-i", "informal", false)
  {
    assert OptionText("-i") == "i" by { assert "-i"[1..] == "i"; }
  }

  /** `main` prints with `print`, or with `debugPrint` when `debug` is on. */
  datatype Line = Plain(text: string) | Debug(text: string)

  function Emit(debug: bool, text: string): Line {
    if debug then Debug(text) else Plain(text)
  }

  /** `prefix` */
  function Prefix(informal: bool): string {
    if informal then "Hey" else "Hello"
  }

  /**
   * The lines `main` prints: one "<prefix>!" when there is nobody to greet,
   * otherwise one "<prefix>, <person>!" per person, in order.
   */
  method GreetLines(debug: bool, informal: bool, people: seq<string>) returns (lines: seq<Line>)
    ensures |people| == 0 ==> lines == [Emit(debug, Prefix(informal) + "!")]
    ensures |people| > 0 ==> |lines| == |people|
    ensures forall k :: 0 <= k < |people| ==>
              lines[k] == Emit(debug, Prefix(informal) + ", " + people[k] + "!")
  {
    if |people| == 0 {
      return [Emit(debug, Prefix(informal) + "!")];
    }
    lines := [];
    var i := 0;
    while i < |people|
      invariant 0 <= i <= |people|
      invariant |lines| == i
      invariant forall k :: 0 <= k < i ==> lines[k] == Emit(debug, Prefix(informal) + ", " + people[k] + "!")
    {
      lines := lines + [Emit(debug, Prefix(informal) + ", " + people[i] + "!")];
      i := i + 1;
    }
  }
}

module ToggleExample {
  import opened Common
  import opened Binders
  import opened Command
  import CommandLaws

  function Convert(typeName: string, token: string): Option<bool> {
    None
  }

  /** The tests' command: `@Flag var toggle: Bool` and a plain `let assertion: Bool`. */
  function ToggleFields(toggle: bool): seq<Field<bool>> {
    [Field("_toggle", Some(CommandFlag(false, toggle))), Field("assertion", None)]
  }

  /** "-toggle" turns false into true and "-t" turns true into false; the plain field is ignored. */
  lemma ToggleTests()
    ensures ReadArguments(ToggleFields(false), ["test", "-toggle"], Convert) == Completed(ToggleFields(true), [])
    ensures ReadArguments(ToggleFields(true), ["test", "-t"], Convert) == Completed(ToggleFields(false), [])
  {
    LongFormToggles();
    ShortFormToggles();
  }

  lemma LongFormToggles()
    ensures ReadArguments(ToggleFields(false), ["test", "-toggle"], Convert) == Completed(ToggleFields(true), [])
  {
    assert SetFlag(false, "toggle", false, ["-toggle"]) == (true, []) by {
      assert OptionText("-toggle") == "toggle" by { assert "-toggle"[1..] == "toggle"; }
      assert FlagMatches("-toggle", "toggle", false);
      assert ["-toggle"][..0] + ["-toggle"][1..] == [];
    }
    assert Tokens(["test", "-toggle"]) == ["-toggle"];
    ToggleBinding(false, ["test", "-toggle"]);
  }

  lemma ShortFormToggles()
    ensures ReadArguments(ToggleFields(true), ["test", "-t"], Convert) == Completed(ToggleFields(false), [])
  {
    assert SetFlag(true, "toggle", false, ["-t"]) == (false, []) by {
      assert OptionText("-t") == "t" by { assert "-t"[1..] == "t"; }
      assert FlagMatches("-t", "toggle", false);
      assert ["-t"][..0] + ["-t"][1..] == [];
    }
    assert Tokens(["test", "-t"]) == ["-t"];
    ToggleBinding(true, ["test", "-t"]);
  }

  lemma ToggleBinding(initial: bool, commandLine: seq<string>)
    ensures var (v, rest) := SetFlag(initial, "toggle", false, Tokens(commandLine));
            ReadArguments(ToggleFields(initial), commandLine, Convert) == Completed(ToggleFields(v), rest)
  {
    var fields := ToggleFields(initial);
    var e := Entry("_toggle", 0, CommandFlag(false, initial));
    var entries := Collect(fields);
    assert entries == [e] by {
      assert Participates(fields[0]) && !Participates(fields[1]);
      assert CollectFrom(fields, 2) == [];
      assert CollectFrom(fields, 1) == [];
    }
    assert Flagged(entries) == [e] && Positional(entries) == [] by {
      assert entries[1..] == [];
    }
    CommandLaws.GroupsAreFlaggedThenPositional(fields, entries, Tokens(commandLine), Convert);
    assert [e] + [] == [e];
  }
}

=== FILE: license.dfy ===
/**
 * The `license` script's key table and its pure look-ups: resolving a key
 * typed by the user to a table key (with the three family keys redirected
 * to a concrete license), the membership test the interactive prompt uses,
 * and the listing printed by `-list`. Fetching and caching the license
 * text is left out.
 */
module License {
  import opened Common
  import Text

  /** `License.allCases`: (key, description) pairs in table order. */
  const AllCases: seq<(string, string)> := [
    ("AFL-3.0", "Academic Free License v3.0"),
    ("Apache-2.0", "Apache license 2.0"),
    ("Artistic-2.0", "Artistic license 2.0"),
    ("BSL-1.0", "Boost Software License 1.0"),
    ("BSD-2-Clause", "BSD 2-clause \"Simplified\" license"),
    ("BSD-3-Clause", "BSD 3-clause \"New\" or \"Revised\" license"),
    ("BSD-3-Clause-Clear", "BSD 3-clause Clear license"),
    ("BSD-4-Clause", "BSD 4-clause \"Original\" or \"Old\" license"),
    ("0BSD", "BSD Zero-Clause license"),
    ("CC", "Creative Commons license family"),
    ("CC0-1.0", "Creative Commons Zero v1.0 Universal"),
    ("CC-BY-4.0", "Creative Commons Attribution 4.0"),
    ("CC-BY-SA-4.0", "Creative Commons Attribution ShareAlike 4.0"),
    ("WTFPL", "Do What The F*ck You Want To Public License"),
    ("ECL-2.0", "Educational Community License v2.0"),
    ("EPL-1.0", "Eclipse Public License 1.0"),
    ("EPL-2.0", "Eclipse Public License 2.0"),
    ("EUPL-1.1", "European Union Public License 1.1"),
    ("AGPL-3.0", "GNU Affero General Public License v3.0"),
    ("GPL", "GNU General Public License family"),
    ("GPL-2.0", "GNU General Public License v2.0"),
    ("GPL-3.0", "GNU General Public License v3.0"),
    ("LGPL", "GNU Lesser General Public License family"),
    ("LGPL-2.1", "GNU Lesser General Public License v2.1"),
    ("LGPL-3.0", "GNU Lesser General Public License v3.0"),
    ("ISC", "ISC"),
    ("LPPL-1.3c", "LaTeX Project Public License v1.3c"),
    ("MS-PL", "Microsoft Public License"),
    ("MIT", "MIT"),
    ("MPL-2.0", "Mozilla Public License 2.0"),
    ("OSL-3.0", "Open Software License 3.0"),
    ("PostgreSQL", "PostgreSQL License"),
    ("OFL-1.1", "SIL Open Font License 1.1"),
    ("NCSA", "University of Illinois/NCSA Open Source License"),
    ("Unlicense", "The Unlicense"),
    ("Zlib", "zLib License")
  ]

  /** The table's keys, in order. */
  function Keys(cases: seq<(string, string)>): (keys: seq<string>)
    ensures |keys| == |cases|
    ensures forall k :: 0 <= k < |cases| ==> keys[k] == cases[k].0
  {
    seq(|cases|, k requires 0 <= k < |cases| => cases[k].0)
  }

  /** The position of the first key whose lowercase form is `key`, or `|keys|`. */
  function FirstLowercased(keys: seq<string>, key: string): (i: nat)
    ensures i <= |keys|
    ensures forall j :: 0 <= j < i ==> Lower(keys[j]) != key
    ensures i < |keys| ==> Lower(keys[i]) == key
  {
    if |keys| == 0 then 0
    else if Lower(keys[0]) == key then 0
    else 1 + FirstLowercased(keys[1..], key)
  }

  /** The family keys name a concrete member of the family. */
  function Redirect(key: string): string {
    match key
    case "CC" => "CC0-1.0"
    case "GPL" => "GPL-3.0"
    case "LGPL" => "LGPL-3.0"
    case _ => key
  }

  /**
   * `resolvedKey(from:)`: the first table key whose lowercase form equals
   * `key`, redirected if it names a family; nil if no key matches. The
   * input is compared as given, so it must already be lowercase.
   */
  function ResolvedKey(key: string): (r: Option<string>)
    ensures r.None? <==> forall j :: 0 <= j < |AllCases| ==> Lower(AllCases[j].0) != key
    ensures r.Some? ==> r.value in Keys(AllCases)
    ensures r.Some? ==> exists j :: 0 <= j < |AllCases| && Lower(AllCases[j].0) == key
                                    && (forall i :: 0 <= i < j ==> Lower(AllCases[i].0) != key)
                                    && r.value == Redirect(AllCases[j].0)
  {
    var keys := Keys(AllCases);
    var i := FirstLowercased(keys, key);
    if i == |keys| then None
    else
      RedirectStaysInTable(keys[i]);
      Some(Redirect(keys[i]))
  }

  /** Each family key redirects to a key of the table. */
  lemma RedirectStaysInTable(key: string)
    requires key in Keys(AllCases)
    ensures Redirect(key) in Keys(AllCases)
  {
    var keys := Keys(AllCases);
    if key == "CC" {
      assert keys[10] == "CC0-1.0";
    } else if key == "GPL" {
      assert keys[21] == "GPL-3.0";
    } else if key == "LGPL" {
      assert keys[24] == "LGPL-3.0";
    }
  }

  /** The first match wins, and it is redirected only when it is a family key. */
  lemma ResolvesToFirstMatch(key: string, i: nat)
    requires i < |AllCases| && Lower(AllCases[i].0) == key
    requires forall j :: 0 <= j < i ==> Lower(AllCases[j].0) != key
    ensures ResolvedKey(key) == Some(Redirect(AllCases[i].0))
    ensures AllCases[i].0 != "CC" && AllCases[i].0 != "GPL" && AllCases[i].0 != "LGPL" ==>
              ResolvedKey(key) == Some(AllCases[i].0)
  {
    var keys := Keys(AllCases);
    assert FirstLowercased(keys, key) == i;
  }

  /** The three family keys, typed in lowercase, resolve to a concrete license. */
  lemma FamiliesRedirect()
    ensures ResolvedKey("cc") == Some("CC0-1.0")
    ensures ResolvedKey("gpl") == Some("GPL-3.0")
    ensures ResolvedKey("lgpl") == Some("LGPL-3.0")
  {
    CcRedirects();
    GplRedirects();
    LgplRedirects();
  }

  lemma CcRedirects()
    ensures ResolvedKey("cc") == Some("CC0-1.0")
  {
    assert Lower("CC") == "cc";
    UnambiguousMatch("CC", "cc", 9);
  }

  lemma GplRedirects()
    ensures ResolvedKey("gpl") == Some("GPL-3.0")
  {
    assert Lower("GPL") == "gpl";
    UnambiguousMatch("GPL", "gpl", 19);
  }

  lemma LgplRedirects()
    ensures ResolvedKey("lgpl") == Some("LGPL-3.0")
  {
    assert Lower("LGPL") == "lgpl";
    UnambiguousMatch("LGPL", "lgpl", 22);
  }

  /** An ordinary key resolves to itself. */
  lemma MitResolvesToItself()
    ensures ResolvedKey("mit") == Some("MIT")
  {
    assert Lower("MIT") == "mit";
    UnambiguousMatch("MIT", "mit", 28);
  }

  /** A key that no earlier key can be mistaken for, by length or first letter. */
  lemma UnambiguousMatch(family: string, key: string, i: nat)
    requires i < |AllCases| && AllCases[i].0 == family && Lower(family) == key
    requires forall j :: 0 <= j < i ==> |AllCases[j].0| != |key| || LowerChar(AllCases[j].0[0]) != key[0]
    ensures ResolvedKey(key) == Some(Redirect(family))
  {
    ResolvesToFirstMatch(key, i);
  }

  /** Input that is not already lowercase never resolves. */
  lemma UppercaseNeverResolves(key: string, k: nat)
    requires k < |key| && IsAsciiUpper(key[k])
    ensures ResolvedKey(key) == None
  {
    forall j | 0 <= j < |AllCases|
      ensures Lower(AllCases[j].0) != key
    {
      LowerHasNoUpper(AllCases[j].0);
    }
  }

  /** `containsLowercased(key:)`: some key's lowercase form is `key`. */
  predicate ContainsLowercased(cases: seq<(string, string)>, key: string) {
    exists j :: 0 <= j < |cases| && Lower(cases[j].0) == key
  }

  /** The prompt's membership test agrees with resolution. */
  lemma ContainsIffResolves(key: string)
    ensures ContainsLowercased(AllCases, key) <==> ResolvedKey(key).Some?
  {
  }

  /**
   * `License.init?(_:)` up to the fetch: the key it would fetch. A key is
   * found exactly when some table key lowercases to the lowercased
   * description; the first such key is the one fetched, after redirecting a
   * family key.
   */
  function KeyFor(description: string): (r: Option<string>)
    ensures r.None? <==> forall j :: 0 <= j < |AllCases| ==> Lower(AllCases[j].0) != Lower(description)
    ensures r.Some? ==> r.value in Keys(AllCases)
    ensures r.Some? ==> exists j :: 0 <= j < |AllCases| && Lower(AllCases[j].0) == Lower(description)
                                    && (forall i :: 0 <= i < j ==> Lower(AllCases[i].0) != Lower(description))
                                    && r.value == Redirect(AllCases[j].0)
  {
    ResolvedKey(Lower(description))
  }

  /** Lookup by description ignores (ASCII) case. */
  lemma KeyForIgnoresCase(a: string, b: string)
    requires Lower(a) == Lower(b)
    ensures KeyFor(a) == KeyFor(b)
  {
  }

  /** Every table key is found through its own spelling. */
  lemma KeyForFindsEveryKey(i: nat)
    requires i < |AllCases|
    ensures KeyFor(AllCases[i].0).Some?
  {
    assert Lower(AllCases[i].0) == Lower(AllCases[i].0);
  }

  /** Any spelling of the family keys is redirected. */
  lemma KeyForRedirects(description: string)
    requires Lower(description) == "gpl"
    ensures KeyFor(description) == Some("GPL-3.0")
  {
    FamiliesRedirect();
  }

  /** One row of the listing: the name alone when it equals its description. */
  function Row(name: string, description: string): string {
    if name == description then name else name + ", " + description
  }

  /** `descriptions`: the rows of the table joined with newlines. */
  function Descriptions(cases: seq<(string, string)>): (text: string)
    ensures |cases| == 0 ==> text == ""
  {
    Text.Join(seq(|cases|, k requires 0 <= k < |cases| => Row(cases[k].0, cases[k].1)), '\n')
  }

  /**
   * The listing has one line per entry, in table order, when no name or
   * description holds a newline and no name is empty.
   */
  lemma DescriptionsLines(cases: seq<(string, string)>)
    requires forall k :: 0 <= k < |cases| ==> Text.IsPiece(cases[k].0, '\n')
    requires forall k :: 0 <= k < |cases| ==> forall c :: c in cases[k].1 ==> c != '\n'
    ensures var lines := Text.Split(Descriptions(cases), '\n');
            && |lines| == |cases|
            && forall k :: 0 <= k < |cases| ==>
                 lines[k] == if cases[k].0 == cases[k].1 then cases[k].0 else cases[k].0 + ", " + cases[k].1
  {
    var rows := seq(|cases|, k requires 0 <= k < |cases| => Row(cases[k].0, cases[k].1));
    forall k | 0 <= k < |rows|
      ensures Text.IsPiece(rows[k], '\n')
    {
      var r := rows[k];
      if cases[k].0 != cases[k].1 {
        var name, description := cases[k].0, cases[k].1;
        assert r == name + ", " + description;
        forall i | 0 <= i < |r| ensures r[i] != '\n' {
          if i < |name| {
            assert r[i] == name[i];
          } else if i < |name| + 2 {
            assert r[i] == ", "[i - |name|];
          } else {
            assert r[i] == description[i - |name| - 2];
            assert description[i - |name| - 2] in description;
          }
        }
      }
    }
    Text.SplitJoin(rows, '\n');
  }
}

=== FILE: supergenpass.dfy ===
/**
 * The SuperGenPass password generator of the `supergenpass` script: the
 * text "<secret>:<input>" is hashed, base-64 encoded and scrubbed of
 * "=", "+" and "/" at least ten times, and then round after round until
 * the first `length` characters make a valid password. The hash (MD5 in
 * the script) is a parameter; the rounds are bounded by a fuel count,
 * since the script's loop has no bound of its own.
 */
module SuperGenPass {
  import opened Common
  import Base64

  type byte = Base64.byte

  /** An ASCII letter or digit: the characters a generated password is made of. */
  predicate IsAlphanumeric(c: char) {
    IsAsciiUpper(c) || IsAsciiLower(c) || IsAsciiDigit(c)
  }

  /**
   * `isValidPassword(_:)`: starts with a lower-case letter, and holds at
   * least one upper-case letter and at least one digit.
   */
  predicate IsValidPassword(p: string) {
    && |p| > 0 && IsAsciiLower(p[0])
    && (exists i :: 0 <= i < |p| && IsAsciiUpper(p[i]))
    && (exists i :: 0 <= i < |p| && IsAsciiDigit(p[i]))
  }

  /** A valid password has a lower-case first letter, an upper-case letter and a digit, all distinct. */
  lemma ValidNeedsThree(p: string)
    requires IsValidPassword(p)
    ensures |p| >= 3
  {
    var u :| 0 <= u < |p| && IsAsciiUpper(p[u]);
    var d :| 0 <= d < |p| && IsAsciiDigit(p[d]);
    assert u != 0 && d != 0 && u != d;
  }

  /** The UTF-8 encoding of one character: one to four octets. */
  function Utf8Char(c: char): (b: seq<byte>)
    ensures 1 <= |b| <= 4
    ensures |b| == 1 <==> c as int < 0x80
    ensures |b| == 1 ==> b[0] as int == c as int
    ensures |b| > 1 ==> 0xC0 <= b[0] as int
    ensures forall k :: 1 <= k < |b| ==> 0x80 <= b[k] as int < 0xC0
  {
    var v := c as int;
    if v < 0x80 then [v as byte]
    else if v < 0x800 then [(0xC0 + v / 0x40) as byte, (0x80 + v % 0x40) as byte]
    else if v < 0x1_0000 then
      [(0xE0 + v / 0x1000) as byte, (0x80 + (v / 0x40) % 0x40) as byte, (0x80 + v % 0x40) as byte]
    else
      [(0xF0 + v / 0x4_0000) as byte, (0x80 + (v / 0x1000) % 0x40) as byte,
       (0x80 + (v / 0x40) % 0x40) as byte, (0x80 + v % 0x40) as byte]
  }

  /** `text.data(using: .utf8)!`: the characters' encodings one after another. */
  function Utf8(text: string): seq<byte> {
    if |text| == 0 then [] else Utf8Char(text[0]) + Utf8(text[1..])
  }

  /** ASCII text encodes to one octet per character, equal to the character's code. */
  lemma {:induction false} Utf8OfAscii(text: string)
    requires forall k :: 0 <= k < |text| ==> text[k] as int < 0x80
    ensures |Utf8(text)| == |text|
    ensures forall k :: 0 <= k < |text| ==> Utf8(text)[k] as int == text[k] as int
  {
    if |text| > 0 {
      Utf8OfAscii(text[1..]);
      var rest := Utf8(text[1..]);
      assert Utf8(text) == Utf8Char(text[0]) + rest;
      forall k | 1 <= k < |text| ensures Utf8(text)[k] as int == text[k] as int {
        assert Utf8(text)[k] == rest[k - 1];
        assert text[1..][k - 1] == text[k];
      }
    }
  }

  /** One character of `replacingOccurrences` for "=" to "A", "+" to "9", then "/" to "8". */
  function Substitute(c: char): char {
    if c == '=' then 'A' else if c == '+' then '9' else if c == '/' then '8' else c
  }

  /** `s.replacingOccurrences(of: [from], with: [to])` for single characters. */
  function ReplaceChar(s: string, from: char, to: char): (r: string)
    ensures |r| == |s|
    ensures forall k :: 0 <= k < |s| && s[k] != from ==> r[k] == s[k]
    ensures forall k :: 0 <= k < |s| && s[k] == from ==> r[k] == to
  {
    seq(|s|, k requires 0 <= k < |s| => if s[k] == from then to else s[k])
  }

  /** The three replacements of a round, applied one after another. */
  function Scramble(s: string): (r: string)
    ensures |r| == |s|
    ensures forall k :: 0 <= k < |s| ==> r[k] == Substitute(s[k])
  {
    ReplaceChar(ReplaceChar(ReplaceChar(s, '=', 'A'), '+', '9'), '/', '8')
  }

  /** Scrambling base-64 text leaves only letters and digits. */
  lemma ScrambleAlphanumeric(s: string)
    requires forall k :: 0 <= k < |s| ==> Base64.IsDigit(s[k]) || s[k] == Base64.Pad
    ensures forall k :: 0 <= k < |s| ==> IsAlphanumeric(Scramble(s)[k])
  {
  }

  /** The text a round starts from and the text it produces. */
  function Round(hash: seq<byte> -> seq<byte>, text: string): string {
    Scramble(Base64.Encode(hash(Utf8(text))))
  }

  /** Every round's output is made of ASCII letters and digits only. */
  lemma RoundAlphanumeric(hash: seq<byte> -> seq<byte>, text: string)
    ensures forall k :: 0 <= k < |Round(hash, text)| ==> IsAlphanumeric(Round(hash, text)[k])
  {
    var digest := hash(Utf8(text));
    Base64.EncodeShape(digest);
    ScrambleAlphanumeric(Base64.Encode(digest));
  }

  /** The text after `n` rounds from `seed`. */
  function Iterate(hash: seq<byte> -> seq<byte>, seed: string, n: nat): string {
    if n == 0 then seed else Round(hash, Iterate(hash, seed, n - 1))
  }

  /** `"\(secret):\(input)"`: the text the first round hashes. */
  function Seed(secret: string, input: string): (s: string)
    ensures |s| == |secret| + 1 + |input|
    ensures s[..|secret|] == secret && s[|secret|] == ':' && s[|secret| + 1..] == input
  {
    secret + ":" + input
  }

  /** `String(s.prefix(n))`: the first `n` characters, or all of them when there are fewer. */
  function Prefix(s: string, n: nat): (p: string)
    ensures |p| == if n <= |s| then n else |s|
    ensures StartsWith(s, p)
  {
    if n <= |s| then s[..n] else s
  }

  /** What `pwgen` comes to within the fuel. */
  datatype Outcome =
    | Password(text: string)
    /** `prefix` with a negative length traps, once the tenth round has run. */
    | Trapped
    /** The fuel ran out before a valid prefix turned up. */
    | OutOfFuel

  /** The text after `n` applications of `step` to `seed`. */
  function Repeat(step: string -> string, seed: string, n: nat): string {
    if n == 0 then seed else step(Repeat(step, seed, n - 1))
  }

  /** Repeating a step that is a round is iterating rounds. */
  lemma {:induction false} RepeatRounds(step: string -> string, hash: seq<byte> -> seq<byte>, seed: string, n: nat)
    requires forall t :: step(t) == Round(hash, t)
    ensures Repeat(step, seed, n) == Iterate(hash, seed, n)
  {
    if n > 0 {
      RepeatRounds(step, hash, seed, n - 1);
    }
  }

  /**
   * The loop of `pwgen` for any round function: at least ten steps, then
   * more until the first `length` characters are valid, at most `fuel`
   * steps in all. `rounds` is the number of steps taken.
   */
  method FirstValid(step: string -> string, seed: string, length: int, fuel: nat)
    returns (r: Outcome, rounds: nat)
    ensures rounds <= fuel
    ensures r.Trapped? <==> length < 0 && fuel >= 10
    ensures r.Trapped? ==> rounds == 10
    ensures r.Password? ==>
              && 10 <= rounds && length >= 0
              && r.text == Prefix(Repeat(step, seed, rounds), length)
              && IsValidPassword(r.text)
    ensures forall m :: 10 <= m < rounds ==>
              length >= 0 && !IsValidPassword(Prefix(Repeat(step, seed, m), length))
    ensures r.OutOfFuel? ==> rounds == fuel
  {
    var password := seed;
    var count: nat := 0;
    while true
      invariant count <= fuel
      invariant password == Repeat(step, seed, count)
      invariant length < 0 ==> count <= 10
      invariant forall m :: 10 <= m < count ==>
                  length >= 0 && !IsValidPassword(Prefix(Repeat(step, seed, m), length))
      decreases fuel - count
    {
      if count >= 10 {
        if length < 0 {
          return Trapped, count;
        }
        var p := Prefix(password, length);
        if IsValidPassword(p) {
          return Password(p), count;
        }
      }
      if count == fuel {
        return OutOfFuel, count;
      }
      password := step(password);
      count := count + 1;
    }
  }

  /**
   * `pwgen(_:_:length:with:)`, running at most `fuel` rounds from
   * "<secret>:<input>": ten rounds unconditionally, then more until the
   * first `length` characters are a valid password.
   */
  method Pwgen(hash: seq<byte> -> seq<byte>, secret: string, input: string, length: int, fuel: nat)
    returns (r: Outcome, rounds: nat)
    ensures rounds <= fuel
    ensures r.Trapped? <==> length < 0 && fuel >= 10
    ensures r.Password? ==>
              && 10 <= rounds && length >= 0
              && r.text == Prefix(Iterate(hash, Seed(secret, input), rounds), length)
              && IsValidPassword(r.text)
    ensures r.Password? ==> forall k :: 0 <= k < |r.text| ==> IsAlphanumeric(r.text[k])
    ensures forall m :: 10 <= m < rounds ==>
              length >= 0 && !IsValidPassword(Prefix(Iterate(hash, Seed(secret, input), m), length))
    ensures r.OutOfFuel? ==> rounds == fuel
    ensures 0 <= length < 3 ==> r.OutOfFuel?
  {
    var seed := Seed(secret, input);
    var step := t => Round(hash, t);
    r, rounds := FirstValid(step, seed, length, fuel);
    forall n: nat ensures Repeat(step, seed, n) == Iterate(hash, seed, n) {
      RepeatRounds(step, hash, seed, n);
    }
    if r.Password? {
      ValidNeedsThree(r.text);
      PasswordAlphanumeric(hash, seed, rounds, length);
    }
  }

  /** A length below three can never be met, so the generator only stops when the fuel runs out. */
  lemma ShortPrefixNeverValid(text: string, length: nat)
    requires length < 3
    ensures !IsValidPassword(Prefix(text, length))
  {
    if IsValidPassword(Prefix(text, length)) {
      ValidNeedsThree(Prefix(text, length));
    }
  }

  /** A generated password is made of ASCII letters and digits. */
  lemma PasswordAlphanumeric(hash: seq<byte> -> seq<byte>, seed: string, n: nat, length: nat)
    requires n >= 1
    ensures forall k :: 0 <= k < |Prefix(Iterate(hash, seed, n), length)| ==>
              IsAlphanumeric(Prefix(Iterate(hash, seed, n), length)[k])
  {
    RoundAlphanumeric(hash, Iterate(hash, seed, n - 1));
  }

  /** The command line's options. */
  datatype Request = Request(secret: Option<string>, input: Option<string>, length: Option<int>)

  /** What `main` does with them, the prompted secret being a parameter. */
  datatype Action =
    | Generate(secret: string, input: string, length: int)
    | Exit(code: int, message: string)
    /** No option given: the random-password path. */
    | RandomPasswords

  /**
   * The option dispatch of `main`: a secret given on the command line needs
   * an input; an input alone takes the secret from the prompt; the length
   * defaults to 10.
   */
  function Dispatch(request: Request, prompted: string): (a: Action)
    ensures a.Generate? <==> request.input.Some?
    ensures a.Generate? ==> a.input == request.input.value
    ensures a.Generate? ==> a.secret == if request.secret.Some? then request.secret.value else prompted
    ensures a.Generate? && request.length.None? ==> a.length == 10
    ensures a.Generate? && request.length.Some? ==> a.length == request.length.value
    ensures a.Exit? <==> request.secret.Some? && request.input.None?
    ensures a.Exit? ==> a.code == 2 && a.message == "input must be included"
    ensures a.RandomPasswords? <==> request.secret.None? && request.input.None?
  {
    match request.secret
    case Some(secret) =>
      (match request.input
       case None => Exit(2, "input must be included")
       case Some(input) => Generate(secret, input, LengthOrDefault(request.length)))
    case None =>
      (match request.input
       case Some(input) => Generate(prompted, input, LengthOrDefault(request.length))
       case None => RandomPasswords)
  }

  /** `length ?? 10` */
  function LengthOrDefault(length: Option<int>): int {
    match length
    case Some(n) => n
    case None => 10
  }

  /** The secret typed at the prompt is used exactly as one given with `-secret` would be. */
  lemma PromptedSecretAgrees(input: string, secret: string, length: Option<int>, other: string)
    ensures Dispatch(Request(None, Some(input), length), secret)
         == Dispatch(Request(Some(secret), Some(input), length), other)
  {
  }
}

=== FILE: text.dfy ===
/**
 * `split(separator:)` with its default of omitting empty pieces, and
 * `joined(separator:)`, over one separator character.
 */
module Text {
  /** A piece `split` can produce: non-empty, without the separator. */
  predicate IsPiece(s: string, sep: char) {
    |s| > 0 && forall k :: 0 <= k < |s| ==> s[k] != sep
  }

  /** The length of the run before the first separator. */
  function RunLength(text: string, sep: char): (n: nat)
    ensures n <= |text|
    ensures forall k :: 0 <= k < n ==> text[k] != sep
    ensures n < |text| ==> text[n] == sep
  {
    if |text| == 0 || text[0] == sep then 0 else 1 + RunLength(text[1..], sep)
  }

  /** `text.split(separator: sep)`: the maximal separator-free runs, empty ones omitted. */
  function Split(text: string, sep: char): (pieces: seq<string>)
    ensures forall k :: 0 <= k < |pieces| ==> IsPiece(pieces[k], sep)
    decreases |text|
  {
    if |text| == 0 then []
    else if text[0] == sep then Split(text[1..], sep)
    else
      var n := RunLength(text, sep);
      var rest := Split(text[n..], sep);
      assert forall k :: 1 <= k < |[text[..n]] + rest| ==> ([text[..n]] + rest)[k] == rest[k - 1];
      [text[..n]] + rest
  }

  /** `count` separators in a row. */
  function Separators(count: nat, sep: char): (run: string)
    ensures |run| == count
    ensures forall k :: 0 <= k < count ==> run[k] == sep
  {
    seq(count, _ => sep)
  }

  /**
   * The text that puts `gaps[k]` separators before piece `k` and the last
   * gap after the last piece.
   */
  function Interleave(gaps: seq<nat>, pieces: seq<string>, sep: char): string
    requires |gaps| == |pieces| + 1
    decreases |pieces|
  {
    if |pieces| == 0 then Separators(gaps[0], sep)
    else Separators(gaps[0], sep) + pieces[0] + Interleave(gaps[1..], pieces[1..], sep)
  }

  /** One more separator in front of interleaved text widens its first gap. */
  lemma InterleaveWidened(gaps: seq<nat>, pieces: seq<string>, sep: char)
    requires |gaps| == |pieces| + 1
    ensures [sep] + Interleave(gaps, pieces, sep) == Interleave([gaps[0] + 1] + gaps[1..], pieces, sep)
  {
    assert Separators(gaps[0] + 1, sep) == [sep] + Separators(gaps[0], sep);
    assert ([gaps[0] + 1] + gaps[1..])[1..] == gaps[1..];
  }

  /** Interleaved text whose first gap is empty starts with its first piece. */
  lemma InterleaveStart(gaps: seq<nat>, pieces: seq<string>, sep: char)
    requires |gaps| == |pieces| + 1 && |pieces| > 0 && |pieces[0]| > 0
    ensures var text := Interleave(gaps, pieces, sep);
            |text| > 0 && text[0] == if gaps[0] > 0 then sep else pieces[0][0]
  {
  }

  /**
   * `split` keeps every non-separator character and nothing else, in order,
   * and cuts only at separators: the text is its pieces with runs of
   * separators around them, at least one separator between two pieces.
   */
  lemma {:induction false} SplitCovers(text: string, sep: char) returns (gaps: seq<nat>)
    ensures |gaps| == |Split(text, sep)| + 1
    ensures forall k :: 0 < k < |gaps| - 1 ==> gaps[k] > 0
    ensures text == Interleave(gaps, Split(text, sep), sep)
    decreases |text|
  {
    if |text| == 0 {
      gaps := [0];
    } else if text[0] == sep {
      var later := SplitCovers(text[1..], sep);
      InterleaveWidened(later, Split(text[1..], sep), sep);
      gaps := [later[0] + 1] + later[1..];
      assert text == [sep] + text[1..];
    } else {
      var n := RunLength(text, sep);
      var pieces := Split(text[n..], sep);
      var later := SplitCovers(text[n..], sep);
      gaps := [0] + later;
      if |pieces| > 0 {
        InterleaveStart(later, pieces, sep);
      }
      assert gaps[1..] == later;
      assert Split(text, sep) == [text[..n]] + pieces;
      assert text == text[..n] + text[n..];
    }
  }

  /** `pieces.joined(separator: sep)`. */
  function Join(pieces: seq<string>, sep: char): string {
    if |pieces| == 0 then ""
    else if |pieces| == 1 then pieces[0]
    else pieces[0] + [sep] + Join(pieces[1..], sep)
  }

  lemma RunOfPiece(piece: string, rest: string, sep: char)
    requires IsPiece(piece, sep)
    requires |rest| == 0 || rest[0] == sep
    ensures RunLength(piece + rest, sep) == |piece|
    decreases |piece|
  {
    if |piece| > 1 {
      assert (piece + rest)[1..] == piece[1..] + rest;
      RunOfPiece(piece[1..], rest, sep);
    } else {
      assert (piece + rest)[1..] == rest;
    }
  }

  /**
   * Splitting undoes joining, provided every piece is one `split` could
   * have produced: non-empty and free of the separator.
   */
  lemma {:induction false} SplitJoin(pieces: seq<string>, sep: char)
    requires forall k :: 0 <= k < |pieces| ==> IsPiece(pieces[k], sep)
    ensures Split(Join(pieces, sep), sep) == pieces
    decreases |pieces|
  {
    if |pieces| == 1 {
      var p := pieces[0];
      RunOfPiece(p, "", sep);
      assert p + "" == p;
      assert p[|p|..] == "";
    } else if |pieces| > 1 {
      var p := pieces[0];
      var tail := Join(pieces[1..], sep);
      var text := p + [sep] + tail;
      assert text == p + ([sep] + tail);
      RunOfPiece(p, [sep] + tail, sep);
      assert text[..|p|] == p;
      assert text[|p|..] == [sep] + tail;
      assert ([sep] + tail)[1..] == tail;
      SplitJoin(pieces[1..], sep);
      assert [p] + pieces[1..] == pieces;
    }
  }

  /**
   * Joining what `split` produced and splitting again gives the same
   * pieces: rewritten text has no empty pieces to lose.
   */
  lemma SplitIsStable(text: string, sep: char)
    ensures Split(Join(Split(text, sep), sep), sep) == Split(text, sep)
  {
    SplitJoin(Split(text, sep), sep);
  }
}

=== FILE: toolchain.dfy ===
/**
 * The `swift-toolchain` script without its file system: editing the
 * `TOOLCHAINS` export in a shell source file, seen as a list of lines, and
 * picking a toolchain from a folder's entries.
 */
module Toolchain {
  import opened Common
  import Text

  const ExportPrefix := "export TOOLCHAINS"

  /** The line that exports `id`. */
  function ExportLine(id: string): string {
    ExportPrefix + "=" + id
  }

  /** `string.split(separator: .newline)` */
  function Lines(text: string): seq<string> {
    Text.Split(text, '\n')
  }

  /** `joined(separator: .newline)` */
  function Unlines(lines: seq<string>): string {
    Text.Join(lines, '\n')
  }

  predicate IsExport(line: string) {
    StartsWith(line, ExportPrefix)
  }

  predicate MentionsExport(line: string) {
    Contains(line, ExportPrefix)
  }

  /** `firstIndex(where:)` for the export prefix; `|lines|` when there is none. */
  function FirstExport(lines: seq<string>): (i: nat)
    ensures i <= |lines|
    ensures forall j :: 0 <= j < i ==> !IsExport(lines[j])
    ensures i < |lines| ==> IsExport(lines[i])
  {
    if |lines| == 0 then 0
    else if IsExport(lines[0]) then 0
    else 1 + FirstExport(lines[1..])
  }

  /** `removeAll(where: { $0.contains("export TOOLCHAINS") })` */
  function DropMentions(lines: seq<string>): (r: seq<string>)
    ensures forall k :: 0 <= k < |r| ==> !MentionsExport(r[k]) && r[k] in lines
    ensures forall l :: l in lines && !MentionsExport(l) ==> l in r
  {
    Filter(Complement(MentionsExport), lines)
  }

  /**
   * `resetIdentifier` on the lines: the first export line is removed, and
   * from its position on every line mentioning the export goes too.
   */
  function ResetLines(lines: seq<string>): (r: seq<string>)
    ensures FirstExport(lines) == |lines| ==> r == lines
    ensures FirstExport(lines) < |lines| ==>
              r == lines[..FirstExport(lines)] + DropMentions(lines[FirstExport(lines) + 1..])
  {
    var i := FirstExport(lines);
    if i == |lines| then lines else lines[..i] + DropMentions(lines[i + 1..])
  }

  /** A line that mentions the export at its start mentions it. */
  lemma ExportMentions(line: string)
    requires IsExport(line)
    ensures MentionsExport(line)
  {
    StartsWithContains(line, ExportPrefix);
  }

  /**
   * After a reset no line exports `TOOLCHAINS`, and the lines before the
   * first export are kept as they were.
   */
  lemma ResetRemovesEveryExport(lines: seq<string>)
    ensures var r := ResetLines(lines);
            && (forall k :: 0 <= k < |r| ==> !IsExport(r[k]))
            && r[..FirstExport(lines)] == lines[..FirstExport(lines)]
  {
    var i := FirstExport(lines);
    var r := ResetLines(lines);
    if i < |lines| {
      var kept := DropMentions(lines[i + 1..]);
      forall k | 0 <= k < |r|
        ensures !IsExport(r[k])
      {
        if k >= i {
          assert r[k] == kept[k - i];
          if IsExport(r[k]) {
            ExportMentions(r[k]);
          }
        }
      }
      assert r[..i] == lines[..i];
    }
  }

  /** A reset is idempotent. */
  lemma ResetIdempotent(lines: seq<string>)
    ensures ResetLines(ResetLines(lines)) == ResetLines(lines)
  {
    ResetRemovesEveryExport(lines);
    assert FirstExport(ResetLines(lines)) == |ResetLines(lines)|;
  }

  /**
   * `setIdentifier` on the lines, as the script does it: the first export
   * line is overwritten with the new export line, and then every line
   * mentioning the export from that position on is removed, the new line
   * included. Without an export line the new line is appended.
   */
  function SetLinesAsWritten(lines: seq<string>, id: string): seq<string> {
    var i := FirstExport(lines);
    if i == |lines| then lines + [ExportLine(id)]
    else lines[..i] + DropMentions([ExportLine(id)] + lines[i + 1..])
  }

  /** The new export line is one that `removeAll` removes. */
  lemma ExportLineIsExport(id: string)
    ensures IsExport(ExportLine(id)) && MentionsExport(ExportLine(id))
  {
    assert ExportLine(id)[..|ExportPrefix|] == ExportPrefix;
    ExportMentions(ExportLine(id));
  }

  /** Setting with no export line present appends the new export. */
  lemma SetAppendsWithoutExport(lines: seq<string>, id: string)
    requires forall k :: 0 <= k < |lines| ==> !IsExport(lines[k])
    ensures SetLinesAsWritten(lines, id) == lines + [ExportLine(id)]
    ensures SetLines(lines, id) == lines + [ExportLine(id)]
  {
  }

  /**
   * When an export line is present, the script's `setIdentifier` removes
   * the line it has just written: the result is exactly `resetIdentifier`'s.
   */
  lemma SetAsWrittenIsReset(lines: seq<string>, id: string)
    requires FirstExport(lines) < |lines|
    ensures SetLinesAsWritten(lines, id) == ResetLines(lines)
  {
    ExportLineIsExport(id);
    var tail := lines[FirstExport(lines) + 1..];
    FilterAppend(Complement(MentionsExport), [ExportLine(id)], tail);
    FilterSingle(Complement(MentionsExport), ExportLine(id));
    assert [] + DropMentions(tail) == DropMentions(tail);
  }

  /** The smallest input that shows it: the existing export is lost, not replaced. */
  lemma SetAsWrittenLosesExport()
    ensures SetLinesAsWritten(["export TOOLCHAINS=old"], "new") == []
  {
    var lines := ["export TOOLCHAINS=old"];
    assert IsExport(lines[0]) by {
      assert lines[0][..|ExportPrefix|] == ExportPrefix;
    }
    assert FirstExport(lines) == 0;
    SetAsWrittenIsReset(lines, "new");
    assert lines[1..] == [];
  }

  /**
   * `setIdentifier` as evidently intended: the first export line becomes
   * the new export line, later lines mentioning the export are removed,
   * and without an export line the new line is appended.
   */
  function SetLines(lines: seq<string>, id: string): (r: seq<string>)
    ensures FirstExport(lines) == |lines| ==> r == lines + [ExportLine(id)]
    ensures FirstExport(lines) < |lines| ==>
              r == lines[..FirstExport(lines)] + [ExportLine(id)] + DropMentions(lines[FirstExport(lines) + 1..])
  {
    var i := FirstExport(lines);
    if i == |lines| then lines + [ExportLine(id)]
    else lines[..i] + [ExportLine(id)] + DropMentions(lines[i + 1..])
  }

  /**
   * After setting, exactly one line exports `TOOLCHAINS`, and it is the new
   * export line.
   */
  lemma SetLeavesOneExport(lines: seq<string>, id: string)
    ensures var r := SetLines(lines, id);
            exists k :: 0 <= k < |r| && r[k] == ExportLine(id)
                        && forall j :: 0 <= j < |r| && j != k ==> !IsExport(r[j])
  {
    var i := FirstExport(lines);
    var r := SetLines(lines, id);
    ExportLineIsExport(id);
    if i == |lines| {
      assert r[|lines|] == ExportLine(id);
    } else {
      var kept := DropMentions(lines[i + 1..]);
      assert r[i] == ExportLine(id);
      forall j | 0 <= j < |r| && j != i
        ensures !IsExport(r[j])
      {
        if j > i {
          assert r[j] == kept[j - i - 1];
          if IsExport(r[j]) {
            ExportMentions(r[j]);
          }
        }
      }
    }
  }

  /** Setting twice is setting once. */
  lemma SetIdempotent(lines: seq<string>, id: string)
    ensures SetLines(SetLines(lines, id), id) == SetLines(lines, id)
  {
    var i := FirstExport(lines);
    var r := SetLines(lines, id);
    ExportLineIsExport(id);
    var j := if i == |lines| then |lines| else i;
    assert r[j] == ExportLine(id);
    assert r[..j] == lines[..j];
    assert FirstExport(r) == j;
    var after := r[j + 1..];
    assert forall k :: 0 <= k < |after| ==> !MentionsExport(after[k]);
    DropMentionsKeepsClean(after);
  }

  /** Removing mentions from lines that have none changes nothing. */
  lemma {:induction false} DropMentionsKeepsClean(lines: seq<string>)
    requires forall k :: 0 <= k < |lines| ==> !MentionsExport(lines[k])
    ensures DropMentions(lines) == lines
  {
    if |lines| > 0 {
      DropMentionsKeepsClean(lines[1..]);
      assert [lines[0]] + lines[1..] == lines;
    }
  }

  /** Whether every line is one `split` could produce. */
  predicate AreLines(lines: seq<string>) {
    forall k :: 0 <= k < |lines| ==> Text.IsPiece(lines[k], '\n')
  }

  /** `resetIdentifier` on the file's text. */
  function ResetIdentifier(text: string): string {
    Unlines(ResetLines(Lines(text)))
  }

  /** `setIdentifier` on the file's text, as written. */
  function SetIdentifierAsWritten(text: string, id: string): string {
    Unlines(SetLinesAsWritten(Lines(text), id))
  }

  /** `setIdentifier` on the file's text, as intended. */
  function SetIdentifier(text: string, id: string): string {
    Unlines(SetLines(Lines(text), id))
  }

  /**
   * Reading back a reset file gives exactly the edited lines: the written
   * text has no empty lines to lose.
   */
  lemma ResetRoundTrip(text: string)
    ensures Lines(ResetIdentifier(text)) == ResetLines(Lines(text))
  {
    var lines := Lines(text);
    var r := ResetLines(lines);
    assert AreLines(r) by {
      var i := FirstExport(lines);
      if i < |lines| {
        var kept := DropMentions(lines[i + 1..]);
        forall k | 0 <= k < |r| ensures Text.IsPiece(r[k], '\n') {
          if k >= i {
            assert r[k] == kept[k - i];
            assert kept[k - i] in lines[i + 1..];
          }
        }
      }
    }
    Text.SplitJoin(r, '\n');
  }

  /**
   * Reading back a file set to `id` gives exactly the edited lines, as
   * long as `id` holds no newline.
   */
  lemma SetRoundTrip(text: string, id: string)
    requires forall k :: 0 <= k < |id| ==> id[k] != '\n'
    ensures Lines(SetIdentifier(text, id)) == SetLines(Lines(text), id)
  {
    var lines := Lines(text);
    var r := SetLines(lines, id);
    var line := ExportLine(id);
    assert Text.IsPiece(line, '\n') by {
      forall k | 0 <= k < |line| ensures line[k] != '\n' {
        if k > |ExportPrefix| {
          assert line[k] == id[k - |ExportPrefix| - 1];
        }
      }
    }
    assert AreLines(r) by {
      var i := FirstExport(lines);
      if i == |lines| {
        assert forall k :: 0 <= k < |lines| ==> r[k] == lines[k];
      } else {
        var kept := DropMentions(lines[i + 1..]);
        forall k | 0 <= k < |r| ensures Text.IsPiece(r[k], '\n') {
          if k > i {
            assert r[k] == kept[k - i - 1];
            assert kept[k - i - 1] in lines[i + 1..];
          }
        }
      }
    }
    Text.SplitJoin(r, '\n');
  }

  // ------------------------------------------------------------ Matching

  /**
   * A subfolder of a toolchains folder: its name without extension, its
   * extension, and the bundle's identifier and version, when it has them.
   */
  datatype Entry = Entry(name: string, ext: string, id: Option<string>, version: Option<string>)

  predicate IsToolchain(e: Entry) {
    e.ext == "xctoolchain"
  }

  /** The version without its last dotted component: "5.9.1" becomes "5.9". */
  function ShortVersion(version: string): string {
    var parts := Text.Split(version, '.');
    Text.Join(parts[..|parts| - (if |parts| == 0 then 0 else 1)], '.')
  }

  /**
   * Dropping the last component of a well-formed dotted version leaves the
   * components before it.
   */
  lemma ShortVersionDropsLast(parts: seq<string>)
    requires |parts| > 0
    requires forall k :: 0 <= k < |parts| ==> Text.IsPiece(parts[k], '.')
    ensures ShortVersion(Text.Join(parts, '.')) == Text.Join(parts[..|parts| - 1], '.')
  {
    Text.SplitJoin(parts, '.');
  }

  /** The input names the toolchain: its identifier, its short version or its name. */
  predicate Names(e: Entry, input: string) {
    && e.id.Some?
    && (|| e.id.value == input
        || (e.version.Some? && ShortVersion(e.version.value) == input)
        || input == e.name)
  }

  /**
   * `getIdentifier(for:with:)`: the identifier of the first toolchain the
   * input names, or nil.
   */
  function GetIdentifier(entries: seq<Entry>, input: string): (r: Option<string>)
    ensures r.None? <==> forall k :: 0 <= k < |entries| ==> !(IsToolchain(entries[k]) && Names(entries[k], input))
    ensures r.Some? ==> exists k :: 0 <= k < |entries| && IsToolchain(entries[k]) && Names(entries[k], input)
                                    && entries[k].id == r
                                    && forall j :: 0 <= j < k ==> !(IsToolchain(entries[j]) && Names(entries[j], input))
  {
    if |entries| == 0 then None
    else if IsToolchain(entries[0]) && Names(entries[0], input) then entries[0].id
    else
      var r := GetIdentifier(entries[1..], input);
      assert forall k :: 1 <= k < |entries| ==> entries[k] == entries[1..][k - 1];
      r
  }

  /** An identifier typed in full selects that toolchain unless an earlier one is named. */
  lemma IdentifierSelectsItself(entries: seq<Entry>, k: nat)
    requires k < |entries| && IsToolchain(entries[k]) && entries[k].id.Some?
    requires forall j :: 0 <= j < k ==> !(IsToolchain(entries[j]) && Names(entries[j], entries[k].id.value))
    ensures GetIdentifier(entries, entries[k].id.value) == entries[k].id
  {
  }

  /**
   * `getVersionWithIdentifier`: the version of the first toolchain whose
   * identifier is exactly the input and that has a version; nil if none.
   */
  function GetVersionWithIdentifier(entries: seq<Entry>, input: string): (r: Option<string>)
    ensures r.None? <==> forall k :: 0 <= k < |entries| ==>
              !(IsToolchain(entries[k]) && entries[k].id == Some(input) && entries[k].version.Some?)
    ensures r.Some? ==> exists k :: 0 <= k < |entries| && IsToolchain(entries[k]) && entries[k].id == Some(input)
                                    && entries[k].version == r
                                    && forall j :: 0 <= j < k ==>
                                         !(IsToolchain(entries[j]) && entries[j].id == Some(input) && entries[j].version.Some?)
  {
    if |entries| == 0 then None
    else if IsToolchain(entries[0]) && entries[0].id == Some(input) && entries[0].version.Some? then entries[0].version
    else
      var r := GetVersionWithIdentifier(entries[1..], input);
      assert forall k :: 1 <= k < |entries| ==> entries[k] == entries[1..][k - 1];
      r
  }

  /** A matching toolchain without a version is skipped, not a dead end. */
  lemma VersionlessMatchIsSkipped(first: Entry, rest: seq<Entry>, input: string)
    requires IsToolchain(first) && first.id == Some(input) && first.version.None?
    ensures GetVersionWithIdentifier([first] + rest, input) == GetVersionWithIdentifier(rest, input)
  {
    assert ([first] + rest)[1..] == rest;
  }
}
